=== FILE: README.md ===
# cargo-cite, modelled in Dafny

cargo-cite is a Cargo subcommand that writes BibTeX citations. It has two modes.

- Package mode reads the `Cargo.toml` in the start directory. It writes a `CITATION.bib` record for the package next to the manifest, or under the name given with `-f`. An existing file is not rewritten unless `--overwrite` is given. With `-r`, a fixed "Citing" section is first appended to every entry of the package directory whose path contains `README`; when the directory's own path contains `README`, that includes the manifest and an existing citation file (see Findings).
- Dependency mode (`-d`) walks the start directory for manifests, honouring `--max-depth`. It builds one `@misc` record per entry of each manifest's `[dependencies]` table. Each registry dependency is enriched with its crates.io metadata. All records are concatenated in discovery order and written once, to `DEPENDENCIES.bib` under the start directory, to the `-f` name, or to standard output for `-f STDOUT`.

The model covers everything between parsed inputs and the file system, with these modules:

- `Manifest` holds the parsed manifest, the two forms of a dependency value, and the classification of a dependency. A path wins over git, and git wins over the registry.
- `Strings` holds `join`, decimal rendering, and the byte-wise string order.
- `Ordered` gives the iteration order of a `BTreeMap` key set: ascending, each key once.
- `Bibtex` holds both record templates as sequences of lines with their exact text. A key reader parses each field name back out of the rendered text, so field order and presence are proved of each rendered line. A value that itself contains a line break, such as a multi-line description, splits its line once the lines are joined; the key reader does not see that split.
- `Dependencies` holds `build_dependencies_bibtex`, an imperative loop over the table in key order. It is proved against the specification function `DependenciesBibtex`.
- `Paths` holds path joining, `contains`, and the README selection.
- `Locator` holds the depth bound of the directory walk and the manifest filter.
- `Orchestrator` has four parts:
  - a `Disk` class whose `files` map the methods update in place;
  - `process_cargo_file`, proved against `ProcessSpec`;
  - the processed/skipped counting loop of `main`, which collects the dependency text;
  - the guarded write of the combined file.

External effects enter the model as parameters:

- The TOML parser is a function from text to an optional manifest.
- The crates.io lookup is a function from crate name to optional metadata. It is called once per registry dependency. `Dependencies.BuildDependenciesBibtex` returns the names it looked up, in call order, as its `lookups` output; `process_cargo_file` and `main` drop that list, as the source does.
- The clock is a function from the index of a `Local::now()` reading to a date. Readings are numbered in program order.
- Directory listing is a function from a directory to its entry names.
- The directory walk is the sequence of items it yields.

## Model

| member | source | states |
|---|---|---|
| Manifest.GetVersion | src/main.rs:129-134 | `get_version`: a bare version string, or the table's `version` field. `Bibtex.VersionKey` states when a version line follows from it. |
| Manifest.GetSourceInfo | src/main.rs:136-141 | `get_source_info`: `(None, None)` for a bare version string, otherwise the table's `(path, git)`. `Manifest.Classify` and `Manifest.RegularIffNoSource` state its meaning. |
| Manifest.Classify | src/main.rs:173-181 | A path gives the local-path branch even when git is set. Git alone gives the git branch. The registry branch is taken exactly for a bare version string or a table with neither path nor git. |
| Manifest.RegularIffNoSource | src/main.rs:173-174 | `is_regular_dependency` holds exactly when `get_source_info` returns `(None, None)`. |
| Manifest.PreferredUrl | src/main.rs:193-196 | `repository.or(homepage)`: the repository when present, otherwise the homepage. |
| Strings.Join | src/main.rs:104 | `join` on a list of strings (also src/main.rs:112 and :190). `Strings.JoinIsInterleaved`, `JoinLength` and `JoinPieceAt` state its layout. |
| Strings.JoinIsInterleaved | src/main.rs:104 | `join` equals the concatenation of a reference layout: pieces in input order, with one separator between consecutive pieces (k − 1 separators for k pieces). |
| Strings.JoinLength | src/main.rs:104 | A joined text has the pieces' total length plus k − 1 separator lengths. |
| Strings.JoinPieceAt | src/main.rs:104 | Each piece occurs unchanged at its own offset of the joined text, in input order. |
| Strings.ShowNat | src/main.rs:97-98 | Decimal rendering is non-empty, all digits, and has no leading zero. |
| Strings.ParseShowNat | src/main.rs:97-98 | Reading a rendered number back gives the number, so month and year are rendered losslessly. |
| Strings.ShowInt | src/main.rs:97-98 | A negative year gets a minus sign before the digits of its magnitude. |
| Strings.LexIrreflexive | src/main.rs:16 | The key order of the dependency map is irreflexive. |
| Strings.LexTransitive | src/main.rs:16 | The key order is transitive. |
| Strings.LexTotal | src/main.rs:16 | Any two distinct keys are ordered one way or the other. |
| Ordered.LeastExists | src/main.rs:167 | Every non-empty key set has a least key. |
| Ordered.LeastUnique | src/main.rs:167 | The least key is unique. |
| Ordered.SortedKeys | src/main.rs:167 | Map iteration order is strictly ascending. |
| Ordered.SortedKeysContents | src/main.rs:167 | Iteration visits every key of the map, and nothing else, exactly once. |
| Ordered.SortedKeysUnfold | src/main.rs:167 | Iteration takes the least key first and then the rest in order. |
| Ordered.SortedKeysUnique | src/main.rs:167 | Any strictly ascending listing of the keys is the iteration order, which therefore depends on the key set alone. |
| Ordered.SortedDistinct | src/main.rs:167 | A strictly ascending listing repeats no key. |
| Paths.JoinPath | src/main.rs:302 | `Path::join`: an absolute name replaces the directory. Otherwise the result starts with the directory, and it always ends with the name. |
| Paths.Contains | src/main.rs:286 | `str::contains`: the pattern occurs somewhere in the text. `Paths.ContainsIff` states it by offset, both ways. |
| Paths.ContainsIff | src/main.rs:286 | `contains` holds exactly when the pattern occurs at some offset. |
| Paths.ReadmeTargets | src/main.rs:282-287 | The README selection of `-r` as written: the joined path of each listed entry that contains `README`, in listing order. Its properties are the lemmas below. |
| Paths.ReadmeTargetsMembers | src/main.rs:284-286 | As written, an entry is selected exactly when its whole joined path contains `README`. Selection selects no more entries than were listed. |
| Paths.ReadmeTargetsSnoc | src/main.rs:284-286 | Selection keeps listing order: one more listed entry adds its path at the end, exactly when that path contains `README`. Which READMEs were appended to before a failed append depends on this order. |
| Paths.JoinPathInjective | src/main.rs:285 | Joining two relative names onto one directory gives the same path only for the same name. |
| Paths.ReadmeDirectorySelectsAll | src/main.rs:284-286 | As written, when the directory's own path contains `README`, every listed entry is selected, in listing order. |
| Paths.ReadmeTargetsByNameMembers | src/main.rs:284-286 | Corrected rule: an entry is selected exactly when its file name contains `README`. |
| Paths.ByNameSelectedAsWritten | src/main.rs:284-286 | Every file the corrected rule selects, the rule as written also selects. |
| Paths.ReadmeInDirectoryName | src/main.rs:286 | In a directory whose own path contains `README`, the rule as written selects `Cargo.toml` as well as `README.md`. |
| Paths.ReadmeByNameInDirectoryName | src/main.rs:286 | In that directory the corrected rule selects only the README. |
| Locator.DepthBound | src/main.rs:225-229 | A non-negative `--max-depth` becomes the walk's bound unchanged. A negative or absent one leaves the walk unbounded. |
| Locator.FindCargoFiles | src/main.rs:221-246 | `find_cargo_files` as written: the walk bounded by `DepthBound(max_depth)`, error items dropped, the directories of the files named `Cargo.toml`, in walk order. |
| Locator.SelectMembers | src/main.rs:231-245 | A directory is found exactly when some walk item within the bound is a file named exactly `Cargo.toml` in it. Walk errors are dropped. |
| Locator.FindCargoFilesMembers | src/main.rs:221-246 | Membership for `find_cargo_files` as written, in terms of `--max-depth`. |
| Locator.SelectMonotone | src/main.rs:225-229 | A larger bound finds everything a smaller one finds, and no bound finds everything. |
| Locator.NegativeIsUnbounded | src/main.rs:227 | Every negative depth finds exactly what an absent one finds. |
| Locator.SelectNone | src/main.rs:240 | Nothing is found when the bound keeps no item. |
| Locator.DepthZeroFindsNothing | src/main.rs:225-226 | As written, `--max-depth 0` finds nothing from any walk that starts at a directory. |
| Locator.DepthZeroMissesManifest | src/main.rs:226 | A package directory holding its own manifest: depth 0 finds nothing, and depth 1 finds the package. |
| Locator.LevelBound | src/main.rs:67 | Corrected bound: `--max-depth N` searches N levels of subdirectories, which is a walk bound of N + 1. A negative or absent value stays unbounded. |
| Locator.DepthZeroFindsOwnManifest | src/main.rs:67 | With the corrected bound, depth 0 finds only the start directory, and finds it exactly when it has a `Cargo.toml` file. |
| Locator.DepthZeroFindsManifestByLevel | src/main.rs:67 | With the corrected bound, depth 0 finds the package directory's own manifest. |
| Bibtex.TemplateNames | src/main.rs:93-101 | The template's field names contain no character that could end a name. |
| Bibtex.Render | src/main.rs:91-113 | The exact text of each line the two templates emit (also src/main.rs:168-211): `@misc{<key>,`, a field as `\t<name>={<value>},`, `\t<name> = {<value>},`, `\t<name> = {<value>}` (keywords, no comma) or `\t<name> = <value>,` (month, year), and the close `}` with a blank line after dependency records. `Bibtex.KeyOfRender` reads the name back from it. |
| Bibtex.KeyOfRender | src/main.rs:93-101 | Reading the name back from a rendered line gives the name the line was built with. |
| Bibtex.ReadBackNames | src/main.rs:93-101 | The names read back from a rendered record are exactly its lines' names, in order. |
| Bibtex.ProjectLines | src/main.rs:91-113 | The lines of `build_bibtex`'s template: open, title, author, version, month, year, the optional url and keywords, close. The lemmas below state their order and values. |
| Bibtex.ProjectBibtex | src/main.rs:85-114 | `build_bibtex`: the rendered text of `ProjectLines` for one clock reading. |
| Bibtex.ProjectFieldOrder | src/main.rs:92-101 | The project record's text reads, in order: `@misc`, title, author, version, month, year, then `url` exactly when a repository is given, then `keywords` exactly when keywords are given, then `}`. |
| Bibtex.ProjectParts | src/main.rs:92-114 | The project record is six fixed lines, then the optional lines, then the closing brace. |
| Bibtex.ProjectNames | src/main.rs:92-101 | The names the project lines are built with, in template order. |
| Bibtex.ProjectWellNamed | src/main.rs:92-101 | Every project field name can be read back from the text. |
| Bibtex.ProjectOptionalLines | src/main.rs:108-113 | There is a `url` line iff a repository is given, carrying the repository, right after `year`. There is a `keywords` line iff keywords are given, carrying them joined by ", ", right before the closing brace. |
| Bibtex.ProjectFraming | src/main.rs:85-113 | The text opens with `@misc{<name>,`. The title is the name followed by `: <description>` exactly when a description is given. The author value is the authors joined by " and " (so `Strings.JoinIsInterleaved` gives its layout), and `{}` for none. Then come the version, and the month and the year of the one clock reading. The text ends with the closing brace. |
| Bibtex.ProjectHeadText | src/main.rs:93-94 | The exact text of the key line and the title line. |
| Bibtex.SourceLines | src/main.rs:176-197 | The lines chosen by source kind: a local-path note, a git url and note, or the crates.io enrichment. |
| Bibtex.EnrichmentLines | src/main.rs:183-197 | The crates.io enrichment: description note, joined authors when non-empty, repository-or-homepage url. |
| Bibtex.VersionLines | src/main.rs:200-202 | The version line, when `get_version` gives one. |
| Bibtex.TrailerLines | src/main.rs:204-213 | Year and month of one clock reading, the crates.io link for registry dependencies, the closing brace. |
| Bibtex.DependencyLines | src/main.rs:168-213 | One dependency's record lines in order: open, title, source lines, version, trailer. |
| Bibtex.DependencyRecord | src/main.rs:168-213 | The rendered text of one dependency's record. |
| Bibtex.DependencyFieldOrder | src/main.rs:168-214 | A dependency record's text reads, in order: `@misc`, title, the source lines, `version` if the manifest declares one, year, month, `howpublished` for a registry dependency only, `}`. |
| Bibtex.DependencyNames | src/main.rs:168-214 | The lines' names equal the key layout of `DependencyFieldOrder`. |
| Bibtex.DependencyWellNamed | src/main.rs:168-214 | Every dependency field name can be read back from the text. |
| Bibtex.SourceNames | src/main.rs:176-197 | The names of the source lines, by branch and lookup result. |
| Bibtex.SourceWellNamed | src/main.rs:176-197 | Every source-line name can be read back. |
| Bibtex.TrailerNames | src/main.rs:200-212 | The names of the trailer: version if declared, year, month, `howpublished` for the registry. |
| Bibtex.TrailerWellNamed | src/main.rs:200-212 | Every trailer name can be read back. |
| Bibtex.SourceKeysMembers | src/main.rs:176-197 | The source lines carry only `note`, `url` and `author`. |
| Bibtex.DependencyKeysMembers | src/main.rs:168-214 | A record has `howpublished` iff the dependency is a registry dependency, and `version` iff the manifest declares one. It has `url`, `note` and `author` exactly when the source lines do. |
| Bibtex.HowpublishedIffRegistry | src/main.rs:209-211 | The crates.io link appears exactly when neither path nor git is set. It is then the last field and built from the name. |
| Bibtex.PathWinsOverGit | src/main.rs:176-177 | With `path` set, the only source line is the local-path note, even if `git` is set. No `url`, `author` or `howpublished` appears. |
| Bibtex.GitDependencyLines | src/main.rs:178-180 | With only `git` set, the source lines are `url = {git}` and then the git note. No `howpublished` appears. |
| Bibtex.RegistryEnrichment | src/main.rs:181-197 | For a registry dependency: a failed lookup adds no `note`, `author` or `url`. A successful one adds `note` iff there is a description, `author` iff the author list is non-empty, and `url` iff there is a repository or a homepage. |
| Bibtex.RegistrySourceKeys | src/main.rs:183-196 | The same at the level of source keys. |
| Bibtex.EnrichmentUrl | src/main.rs:193-196 | The enrichment url is the repository when there is one, otherwise the homepage, and it is the last enrichment line. |
| Bibtex.VersionKey | src/main.rs:200-202 | A version line appears exactly when the manifest declares a version, which is always the case for a bare string. |
| Bibtex.VersionFromManifest | src/main.rs:200-202 | The version line follows the source lines and carries the bare string or the table's `version`. Everything from it on is the same whatever the lookup returned. |
| Bibtex.DependencyFraming | src/main.rs:168-214 | The record text starts with `@misc{rust-<name>,` and the title line, and ends with `}` and an empty line. |
| Bibtex.DependencyHeadText | src/main.rs:168-170 | The exact text of the key line and the title line. |
| Dependencies.DependenciesBibtex | src/main.rs:164-216 | `build_dependencies_bibtex` as a function: each dependency's record in key order, the i-th reading clock number start + i, empty without a table. |
| Dependencies.DependencyLookups | src/main.rs:172-183 | The names looked up on crates.io, in key order. |
| Dependencies.Lookup | src/main.rs:176-183 | crates.io is asked only for a registry dependency; a path or git dependency gets no metadata. `Dependencies.LookupsAreRegistryDependencies` states which names are looked up. |
| Dependencies.Entries | src/main.rs:167-214 | One entry per key. |
| Dependencies.EntriesAt | src/main.rs:167-214 | The i-th record is built from the i-th key and its own table value. Registry metadata is used only for a registry dependency. The date comes from clock reading `start + i`. |
| Dependencies.RecordsInKeyOrder | src/main.rs:166-167 | The output is the records in ascending key order, whatever order the table was written in, and is empty for an empty table. |
| Dependencies.LookupsAreRegistryDependencies | src/main.rs:172-183 | Exactly the registry dependencies are looked up, and keys without repeats give lookups without repeats. |
| Dependencies.EachRegistryDependencyLookedUpOnce | src/main.rs:166-183 | For one manifest, crates.io is asked about exactly its registry dependencies, each once. |
| Dependencies.AppendEnrichment | src/main.rs:183-196 | The text gains exactly the enrichment lines of the lookup result. |
| Dependencies.AppendSource | src/main.rs:172-198 | The text gains the source lines. A lookup happens exactly in the registry branch. |
| Dependencies.AppendVersion | src/main.rs:200-202 | The text gains the manifest's version line, if any. |
| Dependencies.AppendTrailer | src/main.rs:200-212 | The text gains version, year, month and, for the registry, `howpublished`. |
| Dependencies.AppendDependencyRecord | src/main.rs:168-214 | The text gains exactly one dependency record. Its lookup is made exactly for a registry dependency. |
| Dependencies.AppendNext | src/main.rs:167-215 | One loop pass extends the records and the lookup list by the next key. |
| Dependencies.BuildDependenciesBibtex | src/main.rs:164-218 | The loop returns `DependenciesBibtex`: the records in ascending key order, or `""` without a table. The lookups it makes are `DependencyLookups`. |
| Orchestrator.OutputName | src/main.rs:296-300 | The `-f` value when given, otherwise `CITATION.bib`. |
| Orchestrator.AggregateName | src/main.rs:412-416 | The `-f` value when given, otherwise `DEPENDENCIES.bib`. |
| Orchestrator.Disk.Exists | src/main.rs:303 | `Path::exists` (also src/main.rs:351 and :422): a file or a directory is at the path. The guards of `ProcessSpec` and `AggregateOutcome` use it. |
| Orchestrator.Disk.Write | src/main.rs:309 | `fs::write` creates or replaces the file and fails on a directory or a read-only path. |
| Orchestrator.Disk.Append | src/main.rs:288-290 | Appending succeeds only on an existing writable file, and adds the data at its end. |
| Orchestrator.AppendEach | src/main.rs:284-292 | The README appends in listing order: each target must be an existing writable file, and the first failure stops the rest with an error. |
| Orchestrator.AppendEachOnlyTargets | src/main.rs:284-292 | The README appends create and remove no file, and change only the targets. |
| Orchestrator.AppendEachAppends | src/main.rs:284-292 | When every append succeeds, each target listed once ends with the "Citing" section. |
| Orchestrator.AppendEachSucceeds | src/main.rs:284-292 | Every append succeeds when every target exists and is writable. |
| Orchestrator.AppendReadmes | src/main.rs:284-292 | The loop of appends leaves the disk as `AppendEach` says and stops at the first failure. |
| Orchestrator.Load | src/main.rs:251-274 | The manifest is read and parsed; a missing file or a parse failure gives no manifest, and the caller skips. |
| Orchestrator.ProcessSpec | src/main.rs:248-312 | `process_cargo_file` as a function: skip when the manifest does not load; in dependency mode return its records and change nothing; otherwise `CitationSpec`. |
| Orchestrator.CitationSpec | src/main.rs:282-312 | The rest outside dependency mode: a failed listing is an error; the README appends; then the guard (existing output and no `--overwrite` skips), then the write, which fails on a directory or read-only path. |
| Orchestrator.ProcessCargoFile | src/main.rs:248-312 | `process_cargo_file` has exactly the outcome, files and clock readings of `ProcessSpec`. With `-r` it appends to every listed entry whose whole joined path contains `README`, as written. |
| Orchestrator.DependencyModeReadOnly | src/main.rs:277-280 | Dependency mode changes no file. It succeeds iff the manifest loads, returning that manifest's dependency records, with one clock reading per dependency. |
| Orchestrator.CitationWrittenOnSuccess | src/main.rs:295-311 | Outside dependency mode no records are returned and at most one clock reading is taken. A success means the citation record is at the output path. |
| Orchestrator.OnlyOutputAndReadmesChange | src/main.rs:282-311 | Only the output file and the README targets as written (every listed entry whose joined path contains `README`) can change. No file disappears. |
| Orchestrator.ProcessShape | src/main.rs:282-311 | The files afterwards are unchanged, or as the README appends left them, or those plus a write of the output path. |
| Orchestrator.CitationShape | src/main.rs:282-311 | The same for the non-dependency part. |
| Orchestrator.NeverClobbers | src/main.rs:282-307 | Without `--overwrite`, an existing output path that is not itself one of the README targets as written is never written, and the manifest is not counted as processed. |
| Orchestrator.NeverClobbersOutsideReadmePaths | src/main.rs:282-307 | The guard holds for every output path that does not contain `README`. |
| Orchestrator.ReadmeAppendedBeforeGuard | src/main.rs:282-307 | The README appends happen before the guard: even when the citation file exists and the manifest is skipped, each README has gained the section. |
| Orchestrator.CitationAfterReadmes | src/main.rs:295-311 | After successful appends, the files are the appended ones plus, on success only, the citation at the output path. |
| Orchestrator.ExistingCitationAppended | src/main.rs:282-307 | As written, `-r` in a directory whose path contains `README` appends the section to every listed entry, an existing citation file included, and then skips the package: the citation file changes without `--overwrite`. |
| Orchestrator.ReadmeKitCitationAppended | src/main.rs:282-307 | An instance: `-r` in any directory whose path contains `README` (such as `/work/README-kit`) holding `Cargo.toml`, `README.md` and `CITATION.bib` skips the package, and both the existing `CITATION.bib` and `Cargo.toml` gain the section. |
| Orchestrator.DiscoverDepthZero | src/main.rs:225-229 | As written, `-d --max-depth 0` finds no manifest, so the run ends with nothing to process. |
| Orchestrator.ParsedCount | src/main.rs:390-408 | At most one success per manifest. |
| Orchestrator.CountStep | src/main.rs:392-400 | The loaded-manifest count grows by one exactly when the current manifest loads. |
| Orchestrator.Combined | src/main.rs:386-408 | The text collected in dependency mode: each loading manifest's records, in discovery order, with the clock readings numbered on from the previous manifest. |
| Orchestrator.Advance | src/main.rs:390-408 | One manifest further, the count, the next clock reading and the collected text advance by that manifest's share. |
| Orchestrator.Sweep | src/main.rs:386-408 | The loop of `main` as a function: `process_cargo_file` on each manifest in turn, each on the files the previous call left, counting the calls that return `Ok((true, _))`. |
| Orchestrator.SweepStep | src/main.rs:390-407 | One manifest further, the files it leaves and its success, added to the sweep of the rest, give the same final count and files. |
| Orchestrator.SweepSingle | src/main.rs:390-407 | Sweeping one directory is one `process_cargo_file` call, counted iff it succeeds. |
| Orchestrator.ProcessInDirectory | src/main.rs:391 | One call has the outcome, files and readings of `ProcessSpec` with the dependency records as the dependency-mode result. In dependency mode it changes no file, succeeds iff the manifest loads, and returns that manifest's share. |
| Orchestrator.Tally | src/main.rs:392-407 | A success counts as processed and, in dependency mode, appends its text. A failure or an error counts as skipped. |
| Orchestrator.HandleManifest | src/main.rs:391-407 | One loop pass adds one to the processed and skipped counts together and moves the dependency-mode loop state one manifest on. |
| Orchestrator.ProcessAll | src/main.rs:386-408 | The processed and skipped counts sum to the number of manifests. In every mode the processed count and the files are those of `Sweep`: `process_cargo_file` on each directory in turn, on the files the previous one left, counting each `Ok((true, _))`. In dependency mode, processed is the number that load, no file changes, and the collected text is `Combined`: each loading manifest's records in discovery order, with no de-duplication. Outside dependency mode nothing is collected. |
| Orchestrator.AggregateOutcome | src/main.rs:410-430 | The case split of the combined write: nothing outside dependency mode or for empty text, print for `STDOUT`, keep an existing file without `--overwrite`, otherwise write under the start directory or fail. `Orchestrator.AggregateGuard` states it case by case. |
| Orchestrator.WriteAggregate | src/main.rs:411-430 | The result is `AggregateOutcome` of the files before the write. Only `Written` changes a file, and it sets that path to the collected text. |
| Orchestrator.AggregateGuard | src/main.rs:411-430 | The result is `NotWritten` (nothing printed or written) iff dependency mode is off or the text is empty. `Printed` holds iff, beyond that, the name is `STDOUT`, and then it carries the text. A write goes only to the `-f` name (or `DEPENDENCIES.bib`) under the start directory, when that is absent or `--overwrite` is given and it is neither a directory nor read-only. `KeptExisting` only when something is already at that path and `--overwrite` is not given. |
| Orchestrator.Discover | src/main.rs:336-357 | The manifests to process: in dependency mode those `find_cargo_files` returns with `--max-depth` as given; otherwise the start directory when its `Cargo.toml` exists. |
| Orchestrator.DiscoverSingle | src/main.rs:348-357 | Outside dependency mode only the start directory is processed, and only when its `Cargo.toml` exists. |
| Orchestrator.Run | src/main.rs:315-430 | A missing start directory or no manifest changes nothing. Otherwise every found manifest is counted once. Outside dependency mode the files and the processed count are those of one `process_cargo_file` call on the start directory, processed being 1 iff it returns `Ok((true, _))`. In dependency mode the processed count is the number of loading manifests, the combined output is `AggregateOutcome` of their `Combined` records, and the only change is that file when written. |

## Left out

- Command-line parsing (`gumdrop`), `--help`, `-g`, and the default to the current directory. `RunOptions` is the already-parsed result.
- TOML parsing and the serde mapping are a `Parser` parameter. A manifest that does not parse is a skipped manifest.
- The HTTP request to crates.io and its JSON decoding are a `Registry` oracle. A transport or decoding failure is `None`. The lookups are sequential, as in the source, and the model records their order.
- The directory walk (`walkdir`, following symlinks) is the sequence of items it yields, including error items. Its order is taken as given. Symbolic links, cycles and the walk's own ordering are not modelled.
- `fs::read_dir` is a `Listing` parameter. A listing failure is an error for that manifest. Entries that fail individually (`flatten`) are not listed.
- File contents are strings. Lossy UTF-8 conversion (`to_string_lossy`) and byte-level I/O are not modelled. A manifest that exists but cannot be read counts as one that does not load.
- The clock is a parameter indexed by reading number. Time zones and the calendar are not modelled, only the (year, month) each reading gives.
- All `println!` output: warnings, notes, the search banner, "no Cargo.toml found" messages and the final summary. `Run` returns the counts the summary prints.
- Path syntax beyond `join`: `..`, trailing separators and non-UTF-8 paths.
- `readme_section` is the constant `ReadmeSection`. It takes no input.
- Outside dependency mode, `-f STDOUT` names an ordinary file called `STDOUT` next to the manifest, as in the source. Only the combined dependency output treats it as standard output.
- A failed write of the combined file ends `main` with the error (`?` on line 426). The model reports it as `WriteFailed`, with no change on disk.

## Findings

| source | as written | input that shows it | evidently intended | confidence | as-written member | corrected member |
|---|---|---|---|---|---|---|
| src/main.rs:225-229 | `--max-depth N` is passed to `WalkDir::max_depth(N)`, where depth 0 is the start directory itself. So `--max-depth 0` yields only the start directory, which is not a file, and finds no manifest at all. | A package directory `/work/kit` holding `Cargo.toml`, run with `-d --max-depth 0`: nothing is found, and only `--max-depth 1` finds it. | The help text on line 67 says 0 means only the current directory, so the walk bound should be N + 1: depth 0 finds the start directory's own manifest. | not executed | Locator.DepthZeroMissesManifest | Locator.DepthZeroFindsManifestByLevel |
| src/main.rs:283-286 | The README test checks `contains("README")` on the whole joined path, not on the entry's file name. | A package in `/work/README-kit` with entries `Cargo.toml` and `README.md`, run with `-r`: every entry is selected, so the "Citing" section is appended to `Cargo.toml` too, and to an existing `CITATION.bib`, which then changes although `--overwrite` was not given. | Select the entries whose own file name contains `README`. | not executed | Paths.ReadmeInDirectoryName | Paths.ReadmeByNameInDirectoryName |

=== FILE: bibtex.dfy ===
/**
 * The two BibTeX templates: the project's own `@misc` entry (`build_bibtex`) and
 * one `@misc` entry per dependency (`build_dependencies_bibtex`). A record is a
 * sequence of `Line`s; `Render` gives each line's exact text and the record's
 * text is their concatenation. `Key` reads a field name back out of a rendered
 * line, and `ReadBackNames` shows that the names read from the text are the
 * names the record was built with, so field presence and order stated on the
 * lines hold of the text that is produced.
 */
module Bibtex {
  import opened Wrappers
  import opened Strings
  import opened Ordered
  import opened Manifest

  /** The month and year a clock reading yields (`t.month()`, `t.year()`). */
  datatype Date = Date(year: int, month: nat)

  /** The clock: the date seen by the n-th reading of `Local::now()`. */
  type Clock = nat -> Date

  /** The crates.io lookup, as an oracle from crate name to the metadata it returns. */
  type Registry = string -> Option<CrateInfo>

  /** How a field is laid out in the template. */
  datatype Style =
    | Tight        // `\t<name>={<value>},`   — title, project author
    | Spaced       // `\t<name> = {<value>},`
    | SpacedLast   // `\t<name> = {<value>}`  — project keywords, no trailing comma
    | Bare         // `\t<name> = <value>,`   — month, year

  datatype Line =
    | Open(key: string)                                 // `@misc{<key>,`
    | Field(name: string, style: Style, value: string)
    | Close(blank: bool)                                // `}` and, for dependencies, an empty line

  /** The exact text of a line, newline included. */
  function Render(l: Line): string {
    match l
    case Open(key) => "@misc{" + key + ",\n"
    case Field(name, Tight, v) => "\t" + name + "={" + v + "},\n"
    case Field(name, Spaced, v) => "\t" + name + " = {" + v + "},\n"
    case Field(name, SpacedLast, v) => "\t" + name + " = {" + v + "}\n"
    case Field(name, Bare, v) => "\t" + name + " = " + v + ",\n"
    case Close(blank) => if blank then "}\n\n" else "}\n"
  }

  function RenderAll(lines: seq<Line>): (r: seq<string>)
    ensures |r| == |lines|
  {
    seq(|lines|, i requires 0 <= i < |lines| => Render(lines[i]))
  }

  /** The text of a record. */
  function RecordText(lines: seq<Line>): string {
    Concat(RenderAll(lines))
  }

  /** The name a line is built with: the entry type, a field name, or the closing brace. */
  function Name(l: Line): string {
    match l
    case Open(_) => "@misc"
    case Field(name, _, _) => name
    case Close(_) => "}"
  }

  function Names(lines: seq<Line>): (r: seq<string>)
    ensures |r| == |lines|
  {
    seq(|lines|, i requires 0 <= i < |lines| => Name(lines[i]))
  }

  // ---------------------------------------------------------------------------
  // Reading a line's name back from its text

  /** Characters that end a name: the template puts one right after it. */
  predicate EndsName(c: char) { c == ' ' || c == '=' || c == '{' || c == '\n' }

  predicate IsFieldName(k: string) {
    forall i :: 0 <= i < |k| ==> !EndsName(k[i])
  }

  /** Every field of the record has a name the template can delimit. */
  predicate WellNamed(lines: seq<Line>) {
    forall i :: 0 <= i < |lines| ==> (lines[i].Field? ==> IsFieldName(lines[i].name))
  }

  /** The longest prefix without a name-ending character. */
  function NameOf(s: string): string {
    if s == [] || EndsName(s[0]) then [] else [s[0]] + NameOf(s[1..])
  }

  /** The name a line of text starts with, after its indenting tab if it has one. */
  function Key(text: string): string {
    if |text| > 0 && text[0] == '\t' then NameOf(text[1..]) else NameOf(text)
  }

  function Keys(texts: seq<string>): (r: seq<string>)
    ensures |r| == |texts|
  {
    seq(|texts|, i requires 0 <= i < |texts| => Key(texts[i]))
  }

  lemma {:induction false} NameOfPrefix(k: string, rest: string)
    requires IsFieldName(k)
    requires |rest| > 0 && EndsName(rest[0])
    ensures NameOf(k + rest) == k
  {
    if k != [] {
      assert (k + rest)[1..] == k[1..] + rest;
      NameOfPrefix(k[1..], rest);
    }
  }

  lemma KeyOfTabbed(name: string, rest: string)
    requires IsFieldName(name)
    requires |rest| > 0 && EndsName(rest[0])
    ensures Key("\t" + name + rest) == name
  {
    assert ("\t" + name + rest)[1..] == name + rest;
    NameOfPrefix(name, rest);
  }

  lemma KeyOfOpen(key: string)
    ensures Key(Render(Open(key))) == "@misc"
  {
    assert Render(Open(key)) == "@misc" + ("{" + key + ",\n");
    NameOfPrefix("@misc", "{" + key + ",\n");
  }

  lemma KeyOfClose(blank: bool)
    ensures Key(Render(Close(blank))) == "}"
  {
    var rest := if blank then "\n\n" else "\n";
    assert Render(Close(blank)) == "}" + rest;
    NameOfPrefix("}", rest);
  }

  lemma KeyOfField(name: string, style: Style, v: string)
    requires IsFieldName(name)
    ensures Key(Render(Field(name, style, v))) == name
  {
    var rest := match style
      case Tight => "={" + v + "},\n"
      case Spaced => " = {" + v + "},\n"
      case SpacedLast => " = {" + v + "}\n"
      case Bare => " = " + v + ",\n";
    assert Render(Field(name, style, v)) == "\t" + name + rest by {
      match style
      case Tight =>
      case Spaced =>
      case SpacedLast =>
      case Bare =>
    }
    KeyOfTabbed(name, rest);
  }

  /** Reading the name back from a rendered line gives the line's name. */
  lemma KeyOfRender(l: Line)
    requires l.Field? ==> IsFieldName(l.name)
    ensures Key(Render(l)) == Name(l)
  {
    match l
    case Open(key) => KeyOfOpen(key);
    case Field(name, style, v) => KeyOfField(name, style, v);
    case Close(blank) => KeyOfClose(blank);
  }

  /** The names read back from a rendered record are the names it was built with. */
  lemma ReadBackNames(lines: seq<Line>)
    requires WellNamed(lines)
    ensures Keys(RenderAll(lines)) == Names(lines)
  {
    forall i | 0 <= i < |lines| ensures Keys(RenderAll(lines))[i] == Names(lines)[i] {
      KeyOfRender(lines[i]);
    }
  }

  lemma TextAppend(a: seq<Line>, b: seq<Line>)
    ensures RecordText(a + b) == RecordText(a) + RecordText(b)
  {
    assert RenderAll(a + b) == RenderAll(a) + RenderAll(b);
    ConcatAppend(RenderAll(a), RenderAll(b));
  }

  lemma TextSnoc(a: seq<Line>, x: Line)
    ensures RecordText(a + [x]) == RecordText(a) + Render(x)
  {
    assert RenderAll(a + [x]) == RenderAll(a) + [Render(x)];
    ConcatSnoc(RenderAll(a), Render(x));
  }

  lemma TextPair(x: Line, y: Line)
    ensures RecordText([x, y]) == Render(x) + Render(y)
  {
    var r := RenderAll([x, y]);
    assert r == [Render(x), Render(y)];
    assert r[1..][1..] == [];
    assert Concat(r[1..]) == Render(y) + Concat([]);
  }

  /** The field names the templates use contain no character that ends a name. */
  lemma TemplateNames()
    ensures IsFieldName("title") && IsFieldName("author") && IsFieldName("version")
    ensures IsFieldName("month") && IsFieldName("year") && IsFieldName("url")
    ensures IsFieldName("keywords") && IsFieldName("note") && IsFieldName("howpublished")
  {
  }

  /** `[k]` when `b` holds, nothing otherwise. */
  function When(b: bool, k: string): seq<string> { if b then [k] else [] }

  /** `DATE` fields: `month` and `year` as decimal numbers. */
  function Number(name: string, n: int): Line { Field(name, Bare, ShowInt(n)) }

  // ---------------------------------------------------------------------------
  // The project record (`PackageInfo::build_bibtex`)

  /** `: <description>` when there is a description, nothing otherwise. */
  function DescriptionSuffix(d: Option<string>): string {
    match d
    case Some(s) => ": " + s
    case None => ""
  }

  function ProjectLines(p: PackageInfo, now: Date): seq<Line> {
    [ Open(p.name),
      Field("title", Tight, p.name + DescriptionSuffix(p.description)),
      Field("author", Tight, Join(p.authors, " and ")),
      Field("version", Spaced, p.version),
      Number("month", now.month),
      Number("year", now.year) ]
    + (match p.repository case Some(url) => [Field("url", Spaced, url)] case None => [])
    + (match p.keywords case Some(k) => [Field("keywords", SpacedLast, Join(k, ", "))] case None => [])
    + [ Close(false) ]
  }

  /** The citation text written to CITATION.bib. */
  function ProjectBibtex(p: PackageInfo, now: Date): string {
    RecordText(ProjectLines(p, now))
  }

  /**
   * Field order of the project record, as read back from its text: the six fixed
   * fields, then `url` exactly when a repository is given, then `keywords`
   * exactly when keywords are given, then the closing brace.
   */
  lemma ProjectFieldOrder(p: PackageInfo, now: Date)
    ensures Keys(RenderAll(ProjectLines(p, now)))
         == ["@misc", "title", "author", "version", "month", "year"]
            + When(p.repository.Some?, "url")
            + When(p.keywords.Some?, "keywords")
            + ["}"]
  {
    var lines := ProjectLines(p, now);
    ProjectNames(p, now);
    ProjectWellNamed(p, now);
    ReadBackNames(lines);
  }

  /** The project record's lines in three parts: fixed fields, optional fields, closing brace. */
  lemma ProjectParts(p: PackageInfo, now: Date)
    ensures var fixed := ProjectLines(p, now)[..6];
      var opt := ProjectLines(p, now)[6..|ProjectLines(p, now)| - 1];
      ProjectLines(p, now) == fixed + opt + [Close(false)]
      && Names(fixed) == ["@misc", "title", "author", "version", "month", "year"]
      && Names(opt) == When(p.repository.Some?, "url") + When(p.keywords.Some?, "keywords")
      && (forall i :: 0 <= i < |opt| ==> opt[i].Field? && opt[i].name in ["url", "keywords"])
      && (forall i :: 1 <= i < 6 ==> fixed[i].Field? && fixed[i].name in ["title", "author", "version", "month", "year"])
  {
  }

  lemma ProjectNames(p: PackageInfo, now: Date)
    ensures Names(ProjectLines(p, now))
         == ["@misc", "title", "author", "version", "month", "year"]
            + When(p.repository.Some?, "url")
            + When(p.keywords.Some?, "keywords")
            + ["}"]
  {
    var lines := ProjectLines(p, now);
    ProjectParts(p, now);
    var fixed := lines[..6];
    var opt := lines[6..|lines| - 1];
    NamesAppend(fixed, opt);
    NamesAppend(fixed + opt, [Close(false)]);
  }

  lemma ProjectWellNamed(p: PackageInfo, now: Date)
    ensures WellNamed(ProjectLines(p, now))
  {
    var lines := ProjectLines(p, now);
    ProjectParts(p, now);
    TemplateNames();
    forall i | 0 <= i < |lines| && lines[i].Field? ensures IsFieldName(lines[i].name) {
      if i < 6 {
        assert lines[i] == lines[..6][i];
      } else {
        assert lines[i] == lines[6..|lines| - 1][i - 6];
      }
    }
  }

  /**
   * The optional project lines: a `url` line iff a repository is given, a
   * `keywords` line iff keywords are given, each carrying the manifest's value
   * (keywords joined by ", "); url comes right after `year` and keywords right
   * before the closing brace.
   */
  lemma ProjectOptionalLines(p: PackageInfo, now: Date)
    ensures var ks := Keys(RenderAll(ProjectLines(p, now)));
      ("url" in ks <==> p.repository.Some?) && ("keywords" in ks <==> p.keywords.Some?)
    ensures p.repository.Some? ==> ProjectLines(p, now)[6] == Field("url", Spaced, p.repository.value)
    ensures p.keywords.Some? ==>
      var lines := ProjectLines(p, now);
      lines[|lines| - 2] == Field("keywords", SpacedLast, Join(p.keywords.value, ", "))
  {
    ProjectFieldOrder(p, now);
  }

  /**
   * Framing of the project record: its text opens with `@misc{<name>,` followed by
   * the title, whose value is the name with `: <description>` appended exactly
   * when a description is present, and closes with `}`; the author value is the
   * authors joined by " and ", empty for no authors; then come the version and
   * the month and year of the clock reading.
   */
  lemma ProjectFraming(p: PackageInfo, now: Date)
    ensures var text := ProjectBibtex(p, now);
      var head := "@misc{" + p.name + ",\n" + "\ttitle={" + p.name;
      |head| + 2 <= |text| && text[..|head|] == head && text[|text| - 2..] == "}\n"
    ensures ProjectLines(p, now)[1] ==
      Field("title", Tight, if p.description.Some? then p.name + ": " + p.description.value else p.name)
    ensures ProjectLines(p, now)[2] == Field("author", Tight, Join(p.authors, " and "))
    ensures p.authors == [] ==> Render(ProjectLines(p, now)[2]) == "\tauthor={},\n"
    ensures ProjectLines(p, now)[3] == Field("version", Spaced, p.version)
    ensures ProjectLines(p, now)[4] == Number("month", now.month) && ProjectLines(p, now)[5] == Number("year", now.year)
  {
    var lines := ProjectLines(p, now);
    var head := [lines[0], lines[1]];
    var mid := lines[2..|lines| - 1];
    assert lines == head + mid + [Close(false)];
    TextSnoc(head + mid, Close(false));
    TextAppend(head, mid);
    ProjectHeadText(p, now);
    Framed(RecordText(head), RecordText(mid), Render(Close(false)));
    var h := "@misc{" + p.name + ",\n" + "\ttitle={" + p.name;
    var t := RecordText(head);
    assert t[..|h|] == h;
    if p.authors == [] {
      assert lines[2] == Field("author", Tight, "");
    }
  }

  lemma ProjectHeadText(p: PackageInfo, now: Date)
    ensures var lines := ProjectLines(p, now);
      RecordText([lines[0], lines[1]])
        == ("@misc{" + p.name + ",\n" + "\ttitle={" + p.name) + (DescriptionSuffix(p.description) + "},\n")
  {
    var lines := ProjectLines(p, now);
    TextPair(lines[0], lines[1]);
  }

  // ---------------------------------------------------------------------------
  // One dependency record (`build_dependencies_bibtex`, loop body)

  /** The registry enrichment lines for a lookup result, in the order pushed. */
  function EnrichmentLines(fetched: Option<CrateInfo>): seq<Line> {
    match fetched
    case None => []
    case Some(c) =>
      (match c.description case Some(d) => [Field("note", Spaced, d)] case None => [])
      + (match c.authors
         case Some(a) => if |a| > 0 then [Field("author", Spaced, Join(a, " and "))] else []
         case None => [])
      + (match PreferredUrl(c) case Some(u) => [Field("url", Spaced, u)] case None => [])
  }

  /** Lines that say where the dependency comes from; `fetched` is read only for the registry. */
  function SourceLines(info: DependencyInfo, fetched: Option<CrateInfo>): seq<Line> {
    match Classify(info)
    case LocalPath(path) => [Field("note", Spaced, "Local dependency from path: " + path)]
    case GitRepo(url) => [Field("url", Spaced, url), Field("note", Spaced, "Git dependency")]
    case Registry => EnrichmentLines(fetched)
  }

  function VersionLines(info: DependencyInfo): seq<Line> {
    match GetVersion(info)
    case Some(v) => [Field("version", Spaced, v)]
    case None => []
  }

  function CratesIoPage(name: string): string { "https://crates.io/crates/" + name }

  /** The fields after the source lines: version, date, crates.io link. */
  function TrailerLines(name: string, info: DependencyInfo, now: Date): seq<Line> {
    VersionLines(info)
    + [ Number("year", now.year), Number("month", now.month) ]
    + (if Classify(info) == Registry then [Field("howpublished", Spaced, CratesIoPage(name))] else [])
  }

  function DependencyLines(name: string, info: DependencyInfo, fetched: Option<CrateInfo>, now: Date): seq<Line> {
    [ Open("rust-" + name), Field("title", Tight, name) ]
    + SourceLines(info, fetched)
    + TrailerLines(name, info, now)
    + [ Close(true) ]
  }

  function DependencyRecord(name: string, info: DependencyInfo, fetched: Option<CrateInfo>, now: Date): string {
    RecordText(DependencyLines(name, info, fetched, now))
  }

  /** Field names of the source lines, by classification and lookup result. */
  function SourceKeys(info: DependencyInfo, fetched: Option<CrateInfo>): seq<string> {
    match Classify(info)
    case LocalPath(_) => ["note"]
    case GitRepo(_) => ["url", "note"]
    case Registry =>
      match fetched
      case None => []
      case Some(c) =>
        When(c.description.Some?, "note")
        + When(c.authors.Some? && |c.authors.value| > 0, "author")
        + When(c.repository.Some? || c.homepage.Some?, "url")
  }

  /** The field names of a dependency record, in order. */
  function DependencyKeys(info: DependencyInfo, fetched: Option<CrateInfo>): seq<string> {
    ["@misc", "title"] + SourceKeys(info, fetched) + TrailerKeys(info) + ["}"]
  }

  /** Field names of the trailer: the manifest's version if declared, the date, the crates.io page for a registry dependency. */
  function TrailerKeys(info: DependencyInfo): seq<string> {
    When(GetVersion(info).Some?, "version") + ["year", "month"] + When(Classify(info) == Registry, "howpublished")
  }

  /**
   * Field order of a dependency record, as read back from its text: key line,
   * title, the source lines, the manifest's version if it declares one, year,
   * month, `howpublished` for a registry dependency only, closing brace.
   */
  lemma DependencyFieldOrder(name: string, info: DependencyInfo, fetched: Option<CrateInfo>, now: Date)
    ensures Keys(RenderAll(DependencyLines(name, info, fetched, now))) == DependencyKeys(info, fetched)
  {
    DependencyNames(name, info, fetched, now);
    DependencyWellNamed(name, info, fetched, now);
    ReadBackNames(DependencyLines(name, info, fetched, now));
  }

  lemma DependencyShape(name: string, info: DependencyInfo, fetched: Option<CrateInfo>, now: Date)
    ensures DependencyLines(name, info, fetched, now)
         == [Open("rust-" + name), Field("title", Tight, name)] + SourceLines(info, fetched)
            + TrailerLines(name, info, now) + [Close(true)]
  {
  }

  lemma DependencyNames(name: string, info: DependencyInfo, fetched: Option<CrateInfo>, now: Date)
    ensures Names(DependencyLines(name, info, fetched, now)) == DependencyKeys(info, fetched)
  {
    var head := [Open("rust-" + name), Field("title", Tight, name)];
    var src := SourceLines(info, fetched);
    var trailer := TrailerLines(name, info, now);
    var close := [Close(true)];
    DependencyShape(name, info, fetched, now);
    SourceNames(info, fetched);
    TrailerNames(name, info, now);
    NamesAppend(head, src);
    NamesAppend(head + src, trailer);
    NamesAppend(head + src + trailer, close);
    assert Names(head) == ["@misc", "title"];
    assert Names(close) == ["}"];
  }

  lemma DependencyWellNamed(name: string, info: DependencyInfo, fetched: Option<CrateInfo>, now: Date)
    ensures WellNamed(DependencyLines(name, info, fetched, now))
  {
    var head := [Open("rust-" + name), Field("title", Tight, name)];
    var src := SourceLines(info, fetched);
    var trailer := TrailerLines(name, info, now);
    var close := [Close(true)];
    DependencyShape(name, info, fetched, now);
    SourceWellNamed(info, fetched);
    TrailerWellNamed(name, info, now);
    WellNamedAppend(head, src);
    WellNamedAppend(head + src, trailer);
    WellNamedAppend(head + src + trailer, close);
  }

  lemma NamesAppend(a: seq<Line>, b: seq<Line>)
    ensures Names(a + b) == Names(a) + Names(b)
  {
  }

  lemma WellNamedAppend(a: seq<Line>, b: seq<Line>)
    requires WellNamed(a) && WellNamed(b)
    ensures WellNamed(a + b)
  {
    forall i | 0 <= i < |a + b| && (a + b)[i].Field? ensures IsFieldName((a + b)[i].name) {
      if i >= |a| { assert (a + b)[i] == b[i - |a|]; }
    }
  }

  lemma SourceWellNamed(info: DependencyInfo, fetched: Option<CrateInfo>)
    ensures WellNamed(SourceLines(info, fetched))
  {
    TemplateNames();
    var src := SourceLines(info, fetched);
    assert forall i :: 0 <= i < |src| ==> src[i].Field? && src[i].name in ["note", "url", "author"];
  }

  lemma SourceNames(info: DependencyInfo, fetched: Option<CrateInfo>)
    ensures Names(SourceLines(info, fetched)) == SourceKeys(info, fetched)
  {
    var src := SourceLines(info, fetched);
    if Classify(info) == Registry && fetched.Some? {
      var c := fetched.value;
      var d := match c.description case Some(d) => [Field("note", Spaced, d)] case None => [];
      var a := match c.authors
               case Some(a) => if |a| > 0 then [Field("author", Spaced, Join(a, " and "))] else []
               case None => [];
      var u := match PreferredUrl(c) case Some(u) => [Field("url", Spaced, u)] case None => [];
      assert src == d + a + u;
      assert Names(src) == Names(d) + Names(a) + Names(u);
    }
  }

  lemma TrailerNames(name: string, info: DependencyInfo, now: Date)
    ensures Names(TrailerLines(name, info, now)) == TrailerKeys(info)
  {
  }

  lemma TrailerWellNamed(name: string, info: DependencyInfo, now: Date)
    ensures WellNamed(TrailerLines(name, info, now))
  {
    TemplateNames();
    var t := TrailerLines(name, info, now);
    assert forall i :: 0 <= i < |t| ==> t[i].Field? && t[i].name in ["version", "year", "month", "howpublished"];
  }

  /** The registry lookup contributes only note, author and url lines. */
  lemma SourceKeysMembers(info: DependencyInfo, fetched: Option<CrateInfo>)
    ensures forall x :: x in SourceKeys(info, fetched) ==> x == "note" || x == "url" || x == "author"
  {
  }

  /** Membership in a key list laid out as `DependencyKeys` lays it out. */
  lemma LayoutMembers(ks: seq<string>, sk: seq<string>, versioned: bool, registry: bool, x: string)
    requires ks == ["@misc", "title"] + sk + (When(versioned, "version") + ["year", "month"] + When(registry, "howpublished")) + ["}"]
    requires x == "howpublished" || x == "version" || x == "url" || x == "note" || x == "author"
    ensures x in ks <==> x in sk || (versioned && x == "version") || (registry && x == "howpublished")
  {
  }

  /** Which optional keys a dependency record carries. */
  lemma DependencyKeysMembers(ks: seq<string>, info: DependencyInfo, fetched: Option<CrateInfo>)
    requires ks == DependencyKeys(info, fetched)
    ensures "howpublished" in ks <==> Classify(info) == Registry
    ensures "version" in ks <==> GetVersion(info).Some?
    ensures "url" in ks <==> "url" in SourceKeys(info, fetched)
    ensures "note" in ks <==> "note" in SourceKeys(info, fetched)
    ensures "author" in ks <==> "author" in SourceKeys(info, fetched)
  {
    var sk := SourceKeys(info, fetched);
    var versioned, registry := GetVersion(info).Some?, Classify(info) == Registry;
    SourceKeysMembers(info, fetched);
    LayoutMembers(ks, sk, versioned, registry, "howpublished");
    LayoutMembers(ks, sk, versioned, registry, "version");
    LayoutMembers(ks, sk, versioned, registry, "url");
    LayoutMembers(ks, sk, versioned, registry, "note");
    LayoutMembers(ks, sk, versioned, registry, "author");
  }

  // ---------------------------------------------------------------------------
  // Properties of one dependency record

  /**
   * The crates.io link is emitted exactly when the dependency has neither a path
   * nor a git locator, and then it is the last field, built from the name.
   */
  lemma HowpublishedIffRegistry(name: string, info: DependencyInfo, fetched: Option<CrateInfo>, now: Date)
    ensures "howpublished" in Keys(RenderAll(DependencyLines(name, info, fetched, now)))
            <==> GetSourceInfo(info) == (None, None)
    ensures GetSourceInfo(info) == (None, None) ==>
      var lines := DependencyLines(name, info, fetched, now);
      lines[|lines| - 2] == Field("howpublished", Spaced, CratesIoPage(name))
  {
    DependencyFieldOrder(name, info, fetched, now);
    DependencyKeysMembers(Keys(RenderAll(DependencyLines(name, info, fetched, now))), info, fetched);
  }

  /**
   * A path wins over a git locator: with `path` set the only source line is the
   * local-path note, even when `git` is set too, and no url, author or crates.io
   * line appears.
   */
  lemma PathWinsOverGit(name: string, info: DependencyInfo, fetched: Option<CrateInfo>, now: Date)
    requires info.Detailed? && info.path.Some?
    ensures SourceLines(info, fetched) == [Field("note", Spaced, "Local dependency from path: " + info.path.value)]
    ensures var ks := Keys(RenderAll(DependencyLines(name, info, fetched, now)));
      "url" !in ks && "author" !in ks && "howpublished" !in ks && "note" in ks
  {
    DependencyFieldOrder(name, info, fetched, now);
    DependencyKeysMembers(Keys(RenderAll(DependencyLines(name, info, fetched, now))), info, fetched);
  }

  /** With only `git` set: `url = {git}` then the git note, and no crates.io line. */
  lemma GitDependencyLines(name: string, info: DependencyInfo, fetched: Option<CrateInfo>, now: Date)
    requires info.Detailed? && info.path.None? && info.git.Some?
    ensures SourceLines(info, fetched) == [Field("url", Spaced, info.git.value), Field("note", Spaced, "Git dependency")]
    ensures var ks := Keys(RenderAll(DependencyLines(name, info, fetched, now)));
      "howpublished" !in ks && "author" !in ks && "url" in ks && "note" in ks
  {
    DependencyFieldOrder(name, info, fetched, now);
    DependencyKeysMembers(Keys(RenderAll(DependencyLines(name, info, fetched, now))), info, fetched);
  }

  /**
   * Registry enrichment: no lookup result adds no note, author or url; a result
   * adds a note iff it has a description, an author line iff it has a non-empty
   * author list, and a url line iff it has a repository or a homepage.
   */
  lemma RegistryEnrichment(name: string, info: DependencyInfo, fetched: Option<CrateInfo>, now: Date)
    requires GetSourceInfo(info) == (None, None)
    ensures var ks := Keys(RenderAll(DependencyLines(name, info, fetched, now)));
      fetched.None? ==> "note" !in ks && "author" !in ks && "url" !in ks
    ensures fetched.Some? ==>
      var c := fetched.value;
      var ks := Keys(RenderAll(DependencyLines(name, info, fetched, now)));
      ("note" in ks <==> c.description.Some?)
      && ("author" in ks <==> c.authors.Some? && |c.authors.value| > 0)
      && ("url" in ks <==> c.repository.Some? || c.homepage.Some?)
  {
    DependencyFieldOrder(name, info, fetched, now);
    DependencyKeysMembers(Keys(RenderAll(DependencyLines(name, info, fetched, now))), info, fetched);
    RegistrySourceKeys(info, fetched);
  }

  /** The source keys of a registry dependency: one per enrichment the lookup result allows. */
  lemma RegistrySourceKeys(info: DependencyInfo, fetched: Option<CrateInfo>)
    requires Classify(info) == Registry
    ensures fetched.None? ==> SourceKeys(info, fetched) == []
    ensures fetched.Some? ==>
      var c := fetched.value;
      var sk := SourceKeys(info, fetched);
      ("note" in sk <==> c.description.Some?)
      && ("author" in sk <==> c.authors.Some? && |c.authors.value| > 0)
      && ("url" in sk <==> c.repository.Some? || c.homepage.Some?)
  {
  }

  /**
   * The url a registry lookup contributes is the repository when there is one
   * and the homepage otherwise; it is the last enrichment line.
   */
  lemma EnrichmentUrl(c: CrateInfo)
    ensures c.repository.Some? ==>
      var lines := EnrichmentLines(Some(c));
      lines[|lines| - 1] == Field("url", Spaced, c.repository.value)
    ensures c.repository.None? && c.homepage.Some? ==>
      var lines := EnrichmentLines(Some(c));
      lines[|lines| - 1] == Field("url", Spaced, c.homepage.value)
  {
  }

  /** A version line is emitted exactly when the manifest declares a version: always for a bare string. */
  lemma VersionKey(name: string, info: DependencyInfo, fetched: Option<CrateInfo>, now: Date)
    ensures "version" in Keys(RenderAll(DependencyLines(name, info, fetched, now)))
            <==> info.Simple? || info.version.Some?
  {
    DependencyFieldOrder(name, info, fetched, now);
    DependencyKeysMembers(Keys(RenderAll(DependencyLines(name, info, fetched, now))), info, fetched);
  }

  /**
   * The version line comes from the manifest alone: it follows the source
   * lines, carries the bare version string or the table's `version`, and
   * everything from it on is the same whatever the registry lookup returned.
   */
  lemma VersionFromManifest(name: string, info: DependencyInfo, f1: Option<CrateInfo>, f2: Option<CrateInfo>, now: Date)
    ensures info.Simple? ==>
      DependencyLines(name, info, f1, now)[2 + |SourceLines(info, f1)|] == Field("version", Spaced, info.requirement)
    ensures info.Detailed? && info.version.Some? ==>
      DependencyLines(name, info, f1, now)[2 + |SourceLines(info, f1)|] == Field("version", Spaced, info.version.value)
    ensures DependencyLines(name, info, f1, now)[2 + |SourceLines(info, f1)|..]
         == DependencyLines(name, info, f2, now)[2 + |SourceLines(info, f2)|..]
  {
    var head := [Open("rust-" + name), Field("title", Tight, name)];
    var rest := TrailerLines(name, info, now) + [Close(true)];
    var l1 := DependencyLines(name, info, f1, now);
    var l2 := DependencyLines(name, info, f2, now);
    var s1, s2 := SourceLines(info, f1), SourceLines(info, f2);
    assert l1 == (head + s1) + rest;
    assert l2 == (head + s2) + rest;
    assert l1[|head + s1|..] == rest;
    assert l2[|head + s2|..] == rest;
    assert rest[0] == (VersionLines(info) + [Number("year", now.year)])[0];
  }

  /**
   * Framing of a dependency record: its text is keyed `rust-<name>`, titled with
   * the name, and closed by a brace and an empty line.
   */
  lemma DependencyFraming(name: string, info: DependencyInfo, fetched: Option<CrateInfo>, now: Date)
    ensures var text := DependencyRecord(name, info, fetched, now);
      var head := "@misc{rust-" + name + ",\n" + "\ttitle={" + name + "},\n";
      |head| + 3 <= |text| && text[..|head|] == head && text[|text| - 3..] == "}\n\n"
  {
    var head := [Open("rust-" + name), Field("title", Tight, name)];
    var body := SourceLines(info, fetched) + TrailerLines(name, info, now);
    DependencyShape(name, info, fetched, now);
    assert DependencyLines(name, info, fetched, now) == head + body + [Close(true)];
    TextSnoc(head + body, Close(true));
    TextAppend(head, body);
    DependencyHeadText(name);
    Framed(RecordText(head), RecordText(body), Render(Close(true)));
  }

  lemma DependencyHeadText(name: string)
    ensures RecordText([Open("rust-" + name), Field("title", Tight, name)])
         == "@misc{rust-" + name + ",\n" + "\ttitle={" + name + "},\n"
  {
    TextPair(Open("rust-" + name), Field("title", Tight, name));
  }

  lemma Framed(h: string, b: string, c: string)
    ensures var t := h + b + c; |h| + |c| <= |t| && t[..|h|] == h && t[|t| - |c|..] == c
  {
    var t := h + b + c;
    assert t == h + (b + c);
    assert t == (h + b) + c;
  }
}

=== FILE: dependencies.dfy ===
/**
 * `ManifestInfo::build_dependencies_bibtex`: the loop over the dependency table
 * that appends one record per entry to a growing string, proved against the
 * specification `DependenciesBibtex` (records in ascending key order).
 */
module Dependencies {
  import opened Wrappers
  import opened Strings
  import opened Ordered
  import opened Manifest
  import opened Bibtex

  /** What the record of `name` is built from: the lookup happens for registry dependencies only. */
  function Lookup(fetch: Registry, name: string, info: DependencyInfo): Option<CrateInfo> {
    if Classify(info) == Registry then fetch(name) else None
  }

  /** What one record is made of: the name, its table entry, the lookup result and the clock reading. */
  datatype Entry = Entry(name: string, info: DependencyInfo, fetched: Option<CrateInfo>, now: Date)

  /** The entries in the order of `keys`; the i-th reads clock reading `start + i`. */
  function Entries(keys: seq<string>, deps: map<string, DependencyInfo>, fetch: Registry, clock: Clock, start: nat): (es: seq<Entry>)
    requires forall k :: k in keys ==> k in deps
    ensures |es| == |keys|
    decreases |keys|
  {
    if keys == [] then []
    else
      var last := keys[|keys| - 1];
      Entries(keys[..|keys| - 1], deps, fetch, clock, start)
      + [Entry(last, deps[last], Lookup(fetch, last, deps[last]), clock(start + |keys| - 1))]
  }

  /**
   * The i-th record is that of the i-th key, built from its own table entry,
   * from a lookup only when it is a registry dependency, and from clock reading
   * `start + i`.
   */
  lemma {:induction false} EntriesAt(keys: seq<string>, deps: map<string, DependencyInfo>, fetch: Registry, clock: Clock, start: nat)
    requires forall k :: k in keys ==> k in deps
    ensures forall i :: 0 <= i < |keys| ==>
      Entries(keys, deps, fetch, clock, start)[i]
        == Entry(keys[i], deps[keys[i]], Lookup(fetch, keys[i], deps[keys[i]]), clock(start + i))
    decreases |keys|
  {
    if keys != [] {
      var init := keys[..|keys| - 1];
      EntriesAt(init, deps, fetch, clock, start);
      forall i | 0 <= i < |init| ensures keys[i] == init[i] { }
    }
  }

  /** The lines of the records of `es`, one after the other. */
  function EntryLines(es: seq<Entry>): seq<Line>
    decreases |es|
  {
    if es == [] then []
    else
      var e := es[|es| - 1];
      EntryLines(es[..|es| - 1]) + DependencyLines(e.name, e.info, e.fetched, e.now)
  }

  /** The text of one record per key, in the order of `keys`. */
  function Records(keys: seq<string>, deps: map<string, DependencyInfo>, fetch: Registry, clock: Clock, start: nat): string
    requires forall k :: k in keys ==> k in deps
  {
    RecordText(EntryLines(Entries(keys, deps, fetch, clock, start)))
  }

  /** The names looked up on the registry, in the order the lookups happen. */
  function RegistryLookups(keys: seq<string>, deps: map<string, DependencyInfo>): seq<string>
    requires forall k :: k in keys ==> k in deps
    decreases |keys|
  {
    if keys == [] then []
    else
      var last := keys[|keys| - 1];
      RegistryLookups(keys[..|keys| - 1], deps) + When(Classify(deps[last]) == Registry, last)
  }

  /** The text `build_dependencies_bibtex` returns: the records in ascending key order; nothing without a table. */
  ghost function DependenciesBibtex(m: ManifestInfo, fetch: Registry, clock: Clock, start: nat): string {
    match m.dependencies
    case None => ""
    case Some(deps) =>
      SortedKeysContents(deps.Keys);
      Records(SortedKeys(deps.Keys), deps, fetch, clock, start)
  }

  /** The crates.io requests `build_dependencies_bibtex` makes, in the order it makes them. */
  ghost function DependencyLookups(m: ManifestInfo): seq<string> {
    match m.dependencies
    case None => []
    case Some(deps) =>
      SortedKeysContents(deps.Keys);
      RegistryLookups(SortedKeys(deps.Keys), deps)
  }

  /**
   * The records come in ascending key order whatever order the table was written
   * in: any strictly ascending enumeration of the keys gives the same text. A
   * missing or empty table gives the empty string.
   */
  lemma RecordsInKeyOrder(m: ManifestInfo, t: seq<string>, fetch: Registry, clock: Clock, start: nat)
    requires m.dependencies.Some?
    requires StrictlySorted(t)
    requires forall k :: k in t <==> k in m.dependencies.value
    ensures DependenciesBibtex(m, fetch, clock, start) == Records(t, m.dependencies.value, fetch, clock, start)
    ensures t == [] ==> DependenciesBibtex(m, fetch, clock, start) == ""
  {
    SortedKeysUnique(t, m.dependencies.value.Keys);
  }

  /**
   * Exactly the registry dependencies among `keys` are looked up, and over keys
   * that do not repeat, each of them exactly once.
   */
  lemma {:induction false} LookupsAreRegistryDependencies(keys: seq<string>, deps: map<string, DependencyInfo>)
    requires forall k :: k in keys ==> k in deps
    ensures forall x :: x in RegistryLookups(keys, deps) <==> x in keys && Classify(deps[x]) == Registry
    ensures |RegistryLookups(keys, deps)| <= |keys|
    ensures Distinct(keys) ==> Distinct(RegistryLookups(keys, deps))
    decreases |keys|
  {
    if keys != [] {
      var init := keys[..|keys| - 1];
      var last := keys[|keys| - 1];
      LookupsAreRegistryDependencies(init, deps);
      assert keys == init + [last];
      if Distinct(keys) {
        assert Distinct(init) by {
          forall i, j | 0 <= i < j < |init| ensures init[i] != init[j] {
            assert init[i] == keys[i] && init[j] == keys[j];
          }
        }
        assert last !in init by {
          forall i | 0 <= i < |init| ensures init[i] != last {
            assert init[i] == keys[i];
          }
        }
        var prior := RegistryLookups(init, deps);
        assert last !in prior;
        assert Distinct(prior + When(Classify(deps[last]) == Registry, last));
      }
    }
  }

  /**
   * `build_dependencies_bibtex` requests exactly the registry dependencies of the
   * table from crates.io, each of them once.
   */
  lemma EachRegistryDependencyLookedUpOnce(m: ManifestInfo)
    ensures forall x :: x in DependencyLookups(m) <==>
      m.dependencies.Some? && x in m.dependencies.value && Classify(m.dependencies.value[x]) == Registry
    ensures Distinct(DependencyLookups(m))
  {
    if m.dependencies.Some? {
      var deps := m.dependencies.value;
      SortedKeysContents(deps.Keys);
      SortedDistinct(SortedKeys(deps.Keys));
      LookupsAreRegistryDependencies(SortedKeys(deps.Keys), deps);
    }
  }

  /** The crates.io enrichment of a registry dependency: description, non-empty authors, repository or homepage. */
  method AppendEnrichment(text: string, fetched: Option<CrateInfo>) returns (out: string)
    ensures out == text + RecordText(EnrichmentLines(fetched))
  {
    out := text;
    ghost var lines: seq<Line> := [];
    assert RecordText(lines) == "";
    if fetched.Some? {
      var metadata := fetched.value;
      var x;
      if metadata.description.Some? {
        x := Field("note", Spaced, metadata.description.value);
        Pushed(text, out, lines, x); out := out + Render(x); lines := lines + [x];
      }
      if metadata.authors.Some? {
        if |metadata.authors.value| > 0 {
          x := Field("author", Spaced, Join(metadata.authors.value, " and "));
          Pushed(text, out, lines, x); out := out + Render(x); lines := lines + [x];
        }
      }
      var url := metadata.repository.Or(metadata.homepage);
      if url.Some? {
        x := Field("url", Spaced, url.value);
        Pushed(text, out, lines, x); out := out + Render(x); lines := lines + [x];
      }
    }
    assert lines == EnrichmentLines(fetched);
  }

  /** The source branch: path note, git url and note, or a registry lookup (the only one made). */
  method AppendSource(text: string, name: string, info: DependencyInfo, fetch: Registry)
    returns (out: string, looked: bool)
    ensures looked == (Classify(info) == Registry)
    ensures out == text + RecordText(SourceLines(info, Lookup(fetch, name, info)))
  {
    var (pathSource, gitSource) := GetSourceInfo(info);
    looked := false;
    if pathSource.Some? {
      var x := Field("note", Spaced, "Local dependency from path: " + pathSource.value);
      out := text + Render(x);
      TextSnoc([], x);
      assert [] + [x] == [x];
    } else if gitSource.Some? {
      var x := Field("url", Spaced, gitSource.value);
      var y := Field("note", Spaced, "Git dependency");
      out := text + Render(x);
      out := out + Render(y);
      TextPair(x, y);
    } else {
      looked := true;
      var fetched := fetch(name);
      out := AppendEnrichment(text, fetched);
    }
  }

  /** The manifest version line, when the dependency states a version. */
  method AppendVersion(text: string, info: DependencyInfo) returns (out: string)
    ensures out == text + RecordText(VersionLines(info))
  {
    out := text;
    assert RecordText([]) == "";
    var version := GetVersion(info);
    if version.Some? {
      var x := Field("version", Spaced, version.value);
      Pushed(text, out, [], x);
      out := out + Render(x);
      assert [] + [x] == VersionLines(info);
    }
  }

  /** The trailer: manifest version if any, year, month, and the crates.io page for a registry dependency. */
  method AppendTrailer(text: string, name: string, info: DependencyInfo, now: Date) returns (out: string)
    ensures out == text + RecordText(TrailerLines(name, info, now))
  {
    var (pathSource, gitSource) := GetSourceInfo(info);
    var isRegular := pathSource.None? && gitSource.None?;
    out := AppendVersion(text, info);
    ghost var lines := VersionLines(info);
    var x := Number("year", now.year);
    Pushed(text, out, lines, x); out := out + Render(x); lines := lines + [x];
    x := Number("month", now.month);
    Pushed(text, out, lines, x); out := out + Render(x); lines := lines + [x];
    ghost var dated := lines;
    assert dated == VersionLines(info) + [Number("year", now.year), Number("month", now.month)];
    assert isRegular <==> Classify(info) == Registry;
    if isRegular {
      x := Field("howpublished", Spaced, CratesIoPage(name));
      Pushed(text, out, lines, x); out := out + Render(x); lines := lines + [x];
    }
    assert lines == TrailerLines(name, info, now);
  }

  /** Appending one rendered line keeps the text equal to the rendering of the lines so far. */
  lemma Pushed(text: string, out: string, lines: seq<Line>, x: Line)
    requires out == text + RecordText(lines)
    ensures out + Render(x) == text + RecordText(lines + [x])
  {
    TextSnoc(lines, x);
    AppendAssoc(text, RecordText(lines), Render(x));
  }

  /** Appending the rendering of several lines, likewise. */
  lemma Extended(text: string, out: string, lines: seq<Line>, more: seq<Line>)
    requires out == text + RecordText(lines)
    ensures out + RecordText(more) == text + RecordText(lines + more)
  {
    TextAppend(lines, more);
    AppendAssoc(text, RecordText(lines), RecordText(more));
  }

  /** One iteration of the loop: the record of `name` appended to `text`, looked up only in the registry branch. */
  method AppendDependencyRecord(text: string, name: string, info: DependencyInfo, fetch: Registry, now: Date)
    returns (out: string, looked: bool)
    ensures looked == (Classify(info) == Registry)
    ensures out == text + DependencyRecord(name, info, Lookup(fetch, name, info), now)
  {
    out := text;
    ghost var lines: seq<Line> := [];
    assert RecordText(lines) == "";
    assert out == text + RecordText(lines);
    var x := Open("rust-" + name);
    Pushed(text, out, lines, x); out := out + Render(x); lines := lines + [x];
    x := Field("title", Tight, name);
    Pushed(text, out, lines, x); out := out + Render(x); lines := lines + [x];
    assert lines == [Open("rust-" + name), Field("title", Tight, name)];
    ghost var before := out;
    out, looked := AppendSource(out, name, info, fetch);
    Extended(text, before, lines, SourceLines(info, Lookup(fetch, name, info)));
    lines := lines + SourceLines(info, Lookup(fetch, name, info));
    before := out;
    out := AppendTrailer(out, name, info, now);
    Extended(text, before, lines, TrailerLines(name, info, now));
    lines := lines + TrailerLines(name, info, now);
    x := Close(true);
    Pushed(text, out, lines, x); out := out + Render(x); lines := lines + [x];
    DependencyShape(name, info, Lookup(fetch, name, info), now);
    assert lines == DependencyLines(name, info, Lookup(fetch, name, info), now);
  }

  /** Taking the least remaining key extends the ascending enumeration by one. */
  lemma TakeLeast(done: seq<string>, remaining: set<string>, all: set<string>, name: string)
    requires done + SortedKeys(remaining) == SortedKeys(all)
    requires IsLeast(name, remaining)
    ensures (done + [name]) + SortedKeys(remaining - {name}) == SortedKeys(all)
  {
    SortedKeysUnfold(remaining, name);
    assert done + ([name] + SortedKeys(remaining - {name})) == (done + [name]) + SortedKeys(remaining - {name});
  }

  lemma EntriesSnoc(done: seq<string>, name: string, deps: map<string, DependencyInfo>, fetch: Registry, clock: Clock, start: nat,
                    count: nat, now: Date)
    requires forall k :: k in done ==> k in deps
    requires name in deps
    requires count == |done| && now == clock(start + count)
    ensures Entries(done + [name], deps, fetch, clock, start)
         == Entries(done, deps, fetch, clock, start) + [Entry(name, deps[name], Lookup(fetch, name, deps[name]), now)]
  {
    var keys := done + [name];
    assert forall k :: k in keys ==> k in deps;
    assert keys[|keys| - 1] == name;
    assert keys[..|keys| - 1] == done;
  }

  lemma EntryLinesSnoc(es: seq<Entry>, e: Entry)
    ensures EntryLines(es + [e]) == EntryLines(es) + DependencyLines(e.name, e.info, e.fetched, e.now)
  {
    assert (es + [e])[..|es|] == es;
  }

  /** Appending the record of `e` to the text of `es` gives the text of `es + [e]`. */
  lemma AppendedRecord(prior: string, es: seq<Entry>, e: Entry, out: string)
    requires prior == RecordText(EntryLines(es))
    requires out == prior + DependencyRecord(e.name, e.info, e.fetched, e.now)
    ensures out == RecordText(EntryLines(es + [e]))
  {
    EntryLinesSnoc(es, e);
    TextAppend(EntryLines(es), DependencyLines(e.name, e.info, e.fetched, e.now));
  }

  lemma LookupsSnoc(done: seq<string>, name: string, deps: map<string, DependencyInfo>)
    requires forall k :: k in done ==> k in deps
    requires name in deps
    ensures forall k :: k in done + [name] ==> k in deps
    ensures RegistryLookups(done + [name], deps)
         == RegistryLookups(done, deps) + When(Classify(deps[name]) == Registry, name)
  {
    var keys := done + [name];
    assert forall k :: k in keys ==> k in deps;
    assert keys[|keys| - 1] == name;
    assert keys[..|keys| - 1] == done;
  }

  /** One pass of the loop: the record of `name`, read at the `count`-th clock tick, appended to the records so far. */
  method AppendNext(result: string, lookups: seq<string>, name: string, deps: map<string, DependencyInfo>,
                    fetch: Registry, clock: Clock, start: nat, count: nat, ghost done: seq<string>)
    returns (result': string, lookups': seq<string>)
    requires forall k :: k in done ==> k in deps
    requires name in deps
    requires count == |done|
    requires result == Records(done, deps, fetch, clock, start)
    requires lookups == RegistryLookups(done, deps)
    ensures forall k :: k in done + [name] ==> k in deps
    ensures result' == Records(done + [name], deps, fetch, clock, start)
    ensures lookups' == RegistryLookups(done + [name], deps)
  {
    LookupsSnoc(done, name, deps);
    var now := clock(start + count);
    EntriesSnoc(done, name, deps, fetch, clock, start, count, now);
    ghost var es := Entries(done, deps, fetch, clock, start);
    ghost var e := Entry(name, deps[name], Lookup(fetch, name, deps[name]), now);
    var looked;
    ghost var prior := result;
    result', looked := AppendDependencyRecord(result, name, deps[name], fetch, now);
    AppendedRecord(prior, es, e, result');
    lookups' := lookups;
    if looked {
      lookups' := lookups + [name];
    }
  }

  /**
   * `ManifestInfo::build_dependencies_bibtex`: walks the table in ascending key
   * order, appending one record per entry; the i-th record reads clock reading
   * `start + i`. `lookups` lists the crates.io requests made, in order.
   */
  method BuildDependenciesBibtex(m: ManifestInfo, fetch: Registry, clock: Clock, start: nat)
    returns (result: string, lookups: seq<string>)
    ensures result == DependenciesBibtex(m, fetch, clock, start)
    ensures m.dependencies.None? ==> result == "" && lookups == []
    ensures lookups == DependencyLookups(m)
  {
    result := "";
    lookups := [];
    if m.dependencies.Some? {
      var deps := m.dependencies.value;
      var remaining := deps.Keys;
      ghost var done: seq<string> := [];
      var count: nat := 0;
      while remaining != {}
        invariant count == |done|
        invariant remaining <= deps.Keys
        invariant done + SortedKeys(remaining) == SortedKeys(deps.Keys)
        invariant forall k :: k in done ==> k in deps
        invariant result == Records(done, deps, fetch, clock, start)
        invariant lookups == RegistryLookups(done, deps)
        decreases |remaining|
      {
        LeastExists(remaining);
        var name :| IsLeast(name, remaining);
        assert name in remaining && name in deps;
        TakeLeast(done, remaining, deps.Keys, name);
        result, lookups := AppendNext(result, lookups, name, deps, fetch, clock, start, count, done);
        done := done + [name];
        count := count + 1;
        remaining := remaining - {name};
      }
      assert SortedKeys(remaining) == [];
      assert done == SortedKeys(deps.Keys);
    }
  }
}

=== FILE: locator.dfy ===
/**
 * `find_cargo_files`: the depth bound given to the directory walk and the
 * filter that keeps manifests, over the list of entries the walk produces.
 */
module Locator {
  import opened Wrappers
  import opened Paths

  /**
   * One item of the walk: an entry of directory `dir` named `name`, at `depth`
   * levels below the start directory (the start directory itself is depth 0),
   * or an error reported by the walk.
   */
  datatype WalkItem = Visited(dir: string, name: string, isFile: bool, depth: nat) | WalkError(message: string)

  /** `--max-depth`: a non-negative value bounds the walk, a negative one or none leaves it unbounded. */
  function DepthBound(maxDepth: Option<int>): (b: Option<nat>)
    ensures b.Some? <==> maxDepth.Some? && maxDepth.value >= 0
    ensures b.Some? ==> b.value == maxDepth.value
  {
    match maxDepth
    case Some(d) => if d >= 0 then Some(d) else None
    case None => None
  }

  predicate Within(depth: nat, bound: Option<nat>) {
    bound.None? || depth <= bound.value
  }

  /** The walk yields the entry (it is no deeper than the bound) and it is a file named exactly `Cargo.toml`. */
  predicate Keeps(item: WalkItem, bound: Option<nat>) {
    item.Visited? && Within(item.depth, bound) && item.isFile && item.name == CargoFileName
  }

  /** The directories of the kept entries, in walk order. */
  function Select(items: seq<WalkItem>, bound: Option<nat>): seq<string> {
    if items == [] then []
    else (if Keeps(items[0], bound) then [items[0].dir] else []) + Select(items[1..], bound)
  }

  /** `find_cargo_files` as written: the bound goes to the walk unchanged. */
  function FindCargoFiles(items: seq<WalkItem>, maxDepth: Option<int>): seq<string> {
    Select(items, DepthBound(maxDepth))
  }

  /** A directory is found exactly when some item kept under `bound` is its manifest; errors are skipped. */
  lemma {:induction false} SelectMembers(items: seq<WalkItem>, bound: Option<nat>)
    ensures forall d :: d in Select(items, bound) <==> exists i :: 0 <= i < |items| && Keeps(items[i], bound) && items[i].dir == d
    ensures |Select(items, bound)| <= |items|
  {
    if items != [] {
      SelectMembers(items[1..], bound);
      forall d ensures d in Select(items, bound) <==> exists i :: 0 <= i < |items| && Keeps(items[i], bound) && items[i].dir == d {
        if d in Select(items[1..], bound) {
          var j :| 0 <= j < |items[1..]| && Keeps(items[1..][j], bound) && items[1..][j].dir == d;
          assert Keeps(items[j + 1], bound) && items[j + 1].dir == d;
        }
        if exists i :: 0 <= i < |items| && Keeps(items[i], bound) && items[i].dir == d {
          var i :| 0 <= i < |items| && Keeps(items[i], bound) && items[i].dir == d;
          if i > 0 {
            assert items[1..][i - 1] == items[i];
          }
        }
      }
    }
  }

  /** Membership for the finder as written. */
  lemma FindCargoFilesMembers(items: seq<WalkItem>, maxDepth: Option<int>)
    ensures forall d :: d in FindCargoFiles(items, maxDepth) <==>
      exists i :: 0 <= i < |items| && items[i].Visited? && items[i].isFile && items[i].name == CargoFileName
        && items[i].dir == d
        && (maxDepth.None? || maxDepth.value < 0 || items[i].depth <= maxDepth.value)
  {
    SelectMembers(items, DepthBound(maxDepth));
  }

  /** A deeper bound finds everything a shallower one finds, and a negative one the same as none. */
  lemma {:induction false} SelectMonotone(items: seq<WalkItem>, b1: Option<nat>, b2: Option<nat>)
    requires b2.None? || (b1.Some? && b1.value <= b2.value)
    ensures forall d :: d in Select(items, b1) ==> d in Select(items, b2)
  {
    if items != [] {
      SelectMonotone(items[1..], b1, b2);
    }
  }

  lemma NegativeIsUnbounded(items: seq<WalkItem>, d: int)
    requires d < 0
    ensures FindCargoFiles(items, Some(d)) == FindCargoFiles(items, None)
  {
  }

  /** The walk from a start directory: its only depth-0 item is the directory itself. */
  predicate StartsAtDirectory(items: seq<WalkItem>) {
    forall i :: 0 <= i < |items| && items[i].Visited? && items[i].depth == 0 ==> !items[i].isFile
  }

  /**
   * As written, `--max-depth 0` finds nothing at all: the walk bounded at 0
   * yields only the start directory, which is not a file.
   */
  lemma {:induction false} DepthZeroFindsNothing(items: seq<WalkItem>)
    requires StartsAtDirectory(items)
    ensures FindCargoFiles(items, Some(0)) == []
  {
    assert DepthBound(Some(0)) == Some(0);
    SelectNone(items, Some(0));
  }

  /** Nothing is found when the bound keeps no item. */
  lemma {:induction false} SelectNone(items: seq<WalkItem>, bound: Option<nat>)
    requires forall i :: 0 <= i < |items| ==> !Keeps(items[i], bound)
    ensures Select(items, bound) == []
  {
    if items != [] {
      assert forall i :: 0 <= i < |items[1..]| ==> items[1..][i] == items[i + 1];
      SelectNone(items[1..], bound);
    }
  }

  /** The concrete walk of a package directory holding only its manifest. */
  function PackageWalk(): seq<WalkItem> {
    [Visited("/work", "kit", false, 0), Visited("/work/kit", CargoFileName, true, 1)]
  }

  lemma DepthZeroMissesManifest()
    ensures StartsAtDirectory(PackageWalk())
    ensures FindCargoFiles(PackageWalk(), Some(0)) == []
    ensures FindCargoFiles(PackageWalk(), Some(1)) == ["/work/kit"]
  {
    DepthZeroFindsNothing(PackageWalk());
    assert PackageWalk()[1..] == [Visited("/work/kit", CargoFileName, true, 1)];
    assert PackageWalk()[1..][1..] == [];
  }

  /**
   * The evident intent of `--max-depth N` ("0 means only current directory"):
   * search N levels of subdirectories, so the walk is bounded at N + 1.
   */
  function LevelBound(maxDepth: Option<int>): (b: Option<nat>)
    ensures b.Some? <==> maxDepth.Some? && maxDepth.value >= 0
    ensures b.Some? ==> b.value == maxDepth.value + 1
  {
    match DepthBound(maxDepth)
    case Some(d) => Some(d + 1)
    case None => None
  }

  function FindCargoFilesByLevel(items: seq<WalkItem>, maxDepth: Option<int>): seq<string> {
    Select(items, LevelBound(maxDepth))
  }

  /** A walk whose depth-1 items are the entries of the start directory `root`. */
  predicate EntriesOf(items: seq<WalkItem>, root: string) {
    forall i :: 0 <= i < |items| && items[i].Visited? && items[i].depth == 1 ==> items[i].dir == root
  }

  /**
   * With the corrected bound, `--max-depth 0` finds the start directory's own
   * manifest when there is one, and nothing deeper.
   */
  lemma DepthZeroFindsOwnManifest(items: seq<WalkItem>, root: string)
    requires StartsAtDirectory(items) && EntriesOf(items, root)
    ensures forall d :: d in FindCargoFilesByLevel(items, Some(0)) ==> d == root
    ensures root in FindCargoFilesByLevel(items, Some(0)) <==>
      exists i :: 0 <= i < |items| && items[i] == Visited(root, CargoFileName, true, 1)
  {
    SelectMembers(items, Some(1));
    if root in FindCargoFilesByLevel(items, Some(0)) {
      var i :| 0 <= i < |items| && Keeps(items[i], Some(1)) && items[i].dir == root;
      assert items[i] == Visited(root, CargoFileName, true, 1);
    }
    if exists i :: 0 <= i < |items| && items[i] == Visited(root, CargoFileName, true, 1) {
      var i :| 0 <= i < |items| && items[i] == Visited(root, CargoFileName, true, 1);
      assert Keeps(items[i], Some(1));
    }
  }

  lemma DepthZeroFindsManifestByLevel()
    ensures FindCargoFilesByLevel(PackageWalk(), Some(0)) == ["/work/kit"]
  {
    assert PackageWalk()[1..] == [Visited("/work/kit", CargoFileName, true, 1)];
    assert PackageWalk()[1..][1..] == [];
  }
}

=== FILE: manifest.dfy ===
/**
 * The post-parse view of a `Cargo.toml`: the `[package]` section, the
 * `[dependencies]` table (a `BTreeMap`, modelled by its contents) and the
 * registry metadata a crates.io lookup returns. The TOML parser itself is not
 * part of this model.
 */
module Manifest {
  import opened Wrappers

  datatype PackageInfo = PackageInfo(
    name: string,
    version: string,
    authors: seq<string>,        // `#[serde(default)]`: absent means empty
    description: Option<string>,
    repository: Option<string>,
    keywords: Option<seq<string>>)

  /**
   * A dependency value is either a bare requirement string (`serde = "1.0"`) or
   * a table with optional `version`, `path` and `git`.
   */
  datatype DependencyInfo =
    | Simple(requirement: string)
    | Detailed(version: Option<string>, path: Option<string>, git: Option<string>)

  /** The `crate` object of a crates.io API response. */
  datatype CrateInfo = CrateInfo(
    description: Option<string>,
    repository: Option<string>,
    homepage: Option<string>,
    authors: Option<seq<string>>)

  datatype ManifestInfo = ManifestInfo(
    package: PackageInfo,
    dependencies: Option<map<string, DependencyInfo>>)

  /** `DependencyInfo::get_version`: the version the manifest declares, if any. */
  function GetVersion(d: DependencyInfo): Option<string> {
    match d
    case Simple(v) => Some(v)
    case Detailed(v, _, _) => v
  }

  /** `DependencyInfo::get_source_info`: the `(path, git)` pair. */
  function GetSourceInfo(d: DependencyInfo): (Option<string>, Option<string>) {
    match d
    case Simple(_) => (None, None)
    case Detailed(_, p, g) => (p, g)
  }

  /** Where a dependency comes from, as `build_dependencies_bibtex` decides it. */
  datatype Source = LocalPath(path: string) | GitRepo(url: string) | Registry

  /** Path first, then git, then the registry. */
  function Classify(d: DependencyInfo): (s: Source)
    ensures d.Detailed? && d.path.Some? ==> s == LocalPath(d.path.value)
    ensures d.Detailed? && d.path.None? && d.git.Some? ==> s == GitRepo(d.git.value)
    ensures s == Registry <==> d.Simple? || (d.path.None? && d.git.None?)
  {
    var (path, git) := GetSourceInfo(d);
    if path.Some? then LocalPath(path.value)
    else if git.Some? then GitRepo(git.value)
    else Registry
  }

  /** The registry branch is taken exactly when neither a path nor a git locator is given. */
  lemma RegularIffNoSource(d: DependencyInfo)
    ensures Classify(d) == Registry <==> GetSourceInfo(d) == (None, None)
  {
  }

  /** `repository.or(homepage)`: the repository wins, the homepage is the fallback. */
  function PreferredUrl(c: CrateInfo): (u: Option<string>)
    ensures c.repository.Some? ==> u == c.repository
    ensures c.repository.None? ==> u == c.homepage
  {
    c.repository.Or(c.homepage)
  }
}

=== FILE: orchestrator.dfy ===
/**
 * `process_cargo_file` and `main`: what happens to one manifest (skip, append
 * to READMEs, write the citation file or return the dependency records), the
 * loop that counts processed and skipped manifests and collects dependency
 * records, and the final write of the combined dependency file.
 */
module Orchestrator {
  import opened Wrappers
  import opened Manifest
  import opened Bibtex
  import opened Dependencies
  import opened Paths
  import opened Locator

  /** The command-line switches the core reads (`-o`, `-r`, `-f`, `-d`, `-m`). */
  datatype RunOptions = RunOptions(
    overwrite: bool,
    readmeAppend: bool,
    filename: Option<string>,
    dependencies: bool,
    maxDepth: Option<int>)

  /** Reading a manifest's text as TOML into the manifest record; `None` when it does not parse. */
  type Parser = string -> Option<ManifestInfo>

  /** The entry names of a directory in listing order; `None` when it cannot be listed. */
  type Listing = string -> Option<seq<string>>

  /** What `process_cargo_file` returns: `Ok((success, dependency records))` or an error. */
  datatype Outcome = Done(success: bool, deps: string) | Error

  const ReadmeSection: string :=
    "\n## Citing\n\nIf you found this software useful consider citing it. See CITATION.bib for the recommended BibTeX entry.\n"

  const AggregateFileName: string := "DEPENDENCIES.bib"
  const StdoutName: string := "STDOUT"

  /** `-f` if given, else `CITATION.bib`. */
  function OutputName(filename: Option<string>): (n: string)
    ensures filename.Some? ==> n == filename.value
    ensures filename.None? ==> n == CitationFileName
  {
    filename.GetOr(CitationFileName)
  }

  /** `-f` if given, else `DEPENDENCIES.bib`. */
  function AggregateName(filename: Option<string>): (n: string)
    ensures filename.Some? ==> n == filename.value
    ensures filename.None? ==> n == AggregateFileName
  {
    filename.GetOr(AggregateFileName)
  }

  /** The clock readings a dependency bibliography takes: one per dependency. */
  function Reads(m: ManifestInfo): nat {
    match m.dependencies
    case None => 0
    case Some(deps) => |deps.Keys|
  }

  /**
   * The filesystem as the core sees it: regular files and their contents,
   * directories, and the paths where writing fails.
   */
  class Disk {
    var files: map<string, string>
    const dirs: set<string>
    const readOnly: set<string>

    /** No path is both a file and a directory. */
    ghost predicate Valid()
      reads this
    {
      files.Keys !! dirs
    }

    /** `Path::exists`: a file or a directory is there. */
    predicate Exists(p: string)
      reads this
    {
      p in files || p in dirs
    }

    constructor(files: map<string, string>, dirs: set<string>, readOnly: set<string>)
      requires files.Keys !! dirs
      ensures Valid()
      ensures this.files == files && this.dirs == dirs && this.readOnly == readOnly
    {
      this.files := files;
      this.dirs := dirs;
      this.readOnly := readOnly;
    }

    /** `fs::write`: creates or truncates a file; fails on a directory or a read-only path. */
    method Write(path: string, data: string) returns (ok: bool)
      requires Valid()
      modifies this
      ensures Valid()
      ensures ok <==> path !in dirs && path !in readOnly
      ensures files == if ok then old(files)[path := data] else old(files)
    {
      ok := path !in dirs && path !in readOnly;
      if ok {
        files := files[path := data];
      }
    }

    /** Opening an existing file for appending and writing `data` at its end. */
    method Append(path: string, data: string) returns (ok: bool)
      requires Valid()
      modifies this
      ensures Valid()
      ensures ok <==> path in old(files) && path !in readOnly
      ensures files == if ok then old(files)[path := old(files)[path] + data] else old(files)
    {
      ok := path in files && path !in readOnly;
      if ok {
        files := files[path := files[path] + data];
      }
    }
  }

  /**
   * Appending `section` to each target in turn: the files afterwards, and
   * whether every append succeeded (the first failure stops the rest).
   */
  function AppendEach(files: map<string, string>, readOnly: set<string>, targets: seq<string>, section: string)
    : (map<string, string>, bool)
    decreases |targets|
  {
    if targets == [] then (files, true)
    else
      var t := targets[0];
      if t in files && t !in readOnly then AppendEach(files[t := files[t] + section], readOnly, targets[1..], section)
      else (files, false)
  }

  /** Appending never creates or removes a file and touches only the targets. */
  lemma {:induction false} AppendEachOnlyTargets(files: map<string, string>, readOnly: set<string>, targets: seq<string>, section: string)
    ensures AppendEach(files, readOnly, targets, section).0.Keys == files.Keys
    ensures forall p :: p in files && p !in targets ==> AppendEach(files, readOnly, targets, section).0[p] == files[p]
    decreases |targets|
  {
    if targets != [] {
      var t := targets[0];
      if t in files && t !in readOnly {
        AppendEachOnlyTargets(files[t := files[t] + section], readOnly, targets[1..], section);
      }
    }
  }

  /** Every append succeeds when every target exists and is writable. */
  lemma {:induction false} AppendEachSucceeds(files: map<string, string>, readOnly: set<string>, targets: seq<string>, section: string)
    requires forall k :: 0 <= k < |targets| ==> targets[k] in files && targets[k] !in readOnly
    ensures AppendEach(files, readOnly, targets, section).1
    decreases |targets|
  {
    if targets != [] {
      var t := targets[0];
      assert forall k :: 0 <= k < |targets[1..]| ==> targets[1..][k] == targets[k + 1];
      AppendEachSucceeds(files[t := files[t] + section], readOnly, targets[1..], section);
    }
  }

  /** When every append succeeds, each target that appears once ends with the section. */
  lemma {:induction false} AppendEachAppends(files: map<string, string>, readOnly: set<string>, targets: seq<string>, section: string, i: nat)
    requires i < |targets|
    requires AppendEach(files, readOnly, targets, section).1
    requires forall j :: 0 <= j < |targets| && j != i ==> targets[j] != targets[i]
    ensures targets[i] in files && targets[i] in AppendEach(files, readOnly, targets, section).0
    ensures AppendEach(files, readOnly, targets, section).0[targets[i]] == files[targets[i]] + section
    decreases |targets|
  {
    var t := targets[0];
    var next := files[t := files[t] + section];
    AppendEachOnlyTargets(next, readOnly, targets[1..], section);
    if i == 0 {
      AppendEachOnlyTargets(next, readOnly, targets[1..], section);
      assert t !in targets[1..] by {
        forall j | 0 <= j < |targets[1..]| ensures targets[1..][j] != t {
          assert targets[1..][j] == targets[j + 1];
        }
      }
    } else {
      assert forall j :: 0 <= j < |targets[1..]| ==> targets[1..][j] == targets[j + 1];
      AppendEachAppends(next, readOnly, targets[1..], section, i - 1);
    }
  }

  /** Appending the README section to each target, stopping at the first failure. */
  method AppendReadmes(disk: Disk, targets: seq<string>) returns (ok: bool)
    requires disk.Valid()
    modifies disk
    ensures disk.Valid()
    ensures (disk.files, ok) == AppendEach(old(disk.files), disk.readOnly, targets, ReadmeSection)
  {
    var i := 0;
    while i < |targets|
      invariant 0 <= i <= |targets|
      invariant disk.Valid()
      invariant AppendEach(disk.files, disk.readOnly, targets[i..], ReadmeSection)
             == AppendEach(old(disk.files), disk.readOnly, targets, ReadmeSection)
      decreases |targets| - i
    {
      assert targets[i..][1..] == targets[i + 1..];
      ok := disk.Append(targets[i], ReadmeSection);
      if !ok {
        return;
      }
      i := i + 1;
    }
    ok := true;
  }

  /** The manifest of the package in `dir`, if it exists as a file and parses. */
  function Load(files: map<string, string>, parse: Parser, dir: string): Option<ManifestInfo> {
    if CargoPath(dir) in files then parse(files[CargoPath(dir)]) else None
  }

  /** What one manifest contributes in dependency mode, given its first clock reading. */
  type Contribution = (ManifestInfo, nat) -> string

  /** The contribution of `build_dependencies_bibtex`: the manifest's dependency records. */
  ghost function DependencyTexts(fetch: Registry, clock: Clock): Contribution {
    (m: ManifestInfo, tick: nat) => DependenciesBibtex(m, fetch, clock, tick)
  }

  /**
   * `process_cargo_file` for the package in `dir`: its outcome, the files
   * afterwards, and the number of clock readings taken, starting at `start`.
   * `part` is what dependency mode returns for a loaded manifest; the program
   * passes `DependencyTexts`, and the properties of the other modes hold
   * whatever it is.
   */
  ghost function ProcessSpec(files: map<string, string>, dirs: set<string>, readOnly: set<string>, dir: string,
                             opts: RunOptions, parse: Parser, listing: Listing, part: Contribution, clock: Clock, start: nat)
    : (Outcome, map<string, string>, nat)
  {
    match Load(files, parse, dir)
    case None => (Done(false, ""), files, 0)
    case Some(m) =>
      if opts.dependencies then (Done(true, part(m, start)), files, Reads(m))
      else CitationSpec(files, dirs, readOnly, dir, m, opts, listing, clock, start)
  }

  /** The rest of `process_cargo_file` outside dependency mode: README appends, then the guarded citation write. */
  ghost function CitationSpec(files: map<string, string>, dirs: set<string>, readOnly: set<string>, dir: string,
                              m: ManifestInfo, opts: RunOptions, listing: Listing, clock: Clock, start: nat)
    : (Outcome, map<string, string>, nat)
  {
    if opts.readmeAppend && listing(dir).None? then (Error, files, 0)
    else
      var (after, appended) :=
        if opts.readmeAppend then AppendEach(files, readOnly, ReadmeFiles(dir, listing), ReadmeSection)
        else (files, true);
      if !appended then (Error, after, 0)
      else
        var target := TargetPath(dir, opts);
        if (target in after || target in dirs) && !opts.overwrite then (Done(false, ""), after, 1)
        else if target in dirs || target in readOnly then (Error, after, 1)
        else (Done(true, ""), after[target := ProjectBibtex(m.package, clock(start))], 1)
  }

  /** `process_cargo_file`. */
  method ProcessCargoFile(disk: Disk, dir: string, opts: RunOptions, parse: Parser, listing: Listing,
                          fetch: Registry, clock: Clock, start: nat)
    returns (outcome: Outcome, ticks: nat)
    requires disk.Valid()
    modifies disk
    ensures disk.Valid()
    ensures (outcome, disk.files, ticks)
         == ProcessSpec(old(disk.files), disk.dirs, disk.readOnly, dir, opts, parse, listing, DependencyTexts(fetch, clock), clock, start)
  {
    var cargoPath := CargoPath(dir);
    ticks := 0;
    if cargoPath !in disk.files {
      return Done(false, ""), 0;
    }
    var parsed := parse(disk.files[cargoPath]);
    if parsed.None? {
      return Done(false, ""), 0;
    }
    var manifest := parsed.value;
    if opts.dependencies {
      var depsBibtex, _ := BuildDependenciesBibtex(manifest, fetch, clock, start);
      return Done(true, depsBibtex), Reads(manifest);
    }
    if opts.readmeAppend {
      var names := listing(dir);
      if names.None? {
        return Error, 0;
      }
      var ok := AppendReadmes(disk, ReadmeTargets(dir, names.value));
      if !ok {
        return Error, 0;
      }
    }
    var r := ProjectBibtex(manifest.package, clock(start));
    var filePath := TargetPath(dir, opts);
    if disk.Exists(filePath) && !opts.overwrite {
      return Done(false, ""), 1;
    }
    var written := disk.Write(filePath, r);
    if !written {
      return Error, 1;
    }
    return Done(true, ""), 1;
  }

  /** The output file of the package in `dir`. */
  function TargetPath(dir: string, opts: RunOptions): string {
    JoinPath(dir, OutputName(opts.filename))
  }

  /**
   * The files appended to for the package in `dir`, when the directory can be
   * listed: every entry whose joined path contains `README`.
   */
  function ReadmeFiles(dir: string, listing: Listing): seq<string> {
    match listing(dir)
    case Some(names) => ReadmeTargets(dir, names)
    case None => []
  }

  /**
   * Dependency mode changes no file; it succeeds exactly when the manifest
   * loads, returning that manifest's dependency bibliography.
   */
  lemma DependencyModeReadOnly(files: map<string, string>, dirs: set<string>, readOnly: set<string>, dir: string,
                               opts: RunOptions, parse: Parser, listing: Listing, fetch: Registry, clock: Clock, start: nat)
    requires opts.dependencies
    ensures var (outcome, after, ticks) := ProcessSpec(files, dirs, readOnly, dir, opts, parse, listing, DependencyTexts(fetch, clock), clock, start);
      after == files && outcome.Done?
      && ticks == (if outcome.success then Reads(Load(files, parse, dir).value) else 0)
      && (outcome.success <==> Load(files, parse, dir).Some?)
      && (outcome.success ==> outcome.deps == DependenciesBibtex(Load(files, parse, dir).value, fetch, clock, start))
      && (!outcome.success ==> outcome.deps == "")
  {
  }

  /**
   * Outside dependency mode no dependency records are returned, and a success
   * means the package's citation record was written to its output file.
   */
  lemma CitationWrittenOnSuccess(files: map<string, string>, dirs: set<string>, readOnly: set<string>, dir: string,
                                 opts: RunOptions, parse: Parser, listing: Listing, part: Contribution, clock: Clock, start: nat)
    requires !opts.dependencies
    ensures var (outcome, after, ticks) := ProcessSpec(files, dirs, readOnly, dir, opts, parse, listing, part, clock, start);
      (outcome.Done? ==> outcome.deps == "")
      && ticks <= 1
      && (outcome == Done(true, "") ==>
            Load(files, parse, dir).Some? && TargetPath(dir, opts) in after
            && after[TargetPath(dir, opts)] == ProjectBibtex(Load(files, parse, dir).value.package, clock(start)))
  {
  }

  /**
   * Only the output file and the README files can change, and no file
   * disappears.
   */
  lemma OnlyOutputAndReadmesChange(files: map<string, string>, dirs: set<string>, readOnly: set<string>, dir: string,
                                   opts: RunOptions, parse: Parser, listing: Listing, part: Contribution, clock: Clock, start: nat)
    ensures var after := ProcessSpec(files, dirs, readOnly, dir, opts, parse, listing, part, clock, start).1;
      files.Keys <= after.Keys <= files.Keys + {TargetPath(dir, opts)}
      && forall p :: p in files && p != TargetPath(dir, opts) && p !in ReadmeFiles(dir, listing) ==> after[p] == files[p]
  {
    AppendEachOnlyTargets(files, readOnly, ReadmeFiles(dir, listing), ReadmeSection);
    ProcessShape(files, dirs, readOnly, dir, opts, parse, listing, part, clock, start);
  }

  /** The files after the README appends, or unchanged when there are none to make. */
  function Staged(files: map<string, string>, readOnly: set<string>, dir: string, opts: RunOptions, listing: Listing)
    : map<string, string>
  {
    if opts.readmeAppend && listing(dir).Some? then AppendEach(files, readOnly, ReadmeFiles(dir, listing), ReadmeSection).0
    else files
  }

  /**
   * `process_cargo_file` leaves the files as they were, or as the README
   * appends left them, with at most the output file written on top.
   */
  lemma ProcessShape(files: map<string, string>, dirs: set<string>, readOnly: set<string>, dir: string,
                     opts: RunOptions, parse: Parser, listing: Listing, part: Contribution, clock: Clock, start: nat)
    ensures var after := ProcessSpec(files, dirs, readOnly, dir, opts, parse, listing, part, clock, start).1;
      var staged := Staged(files, readOnly, dir, opts, listing);
      var target := TargetPath(dir, opts);
      after == files || after == staged || (target in after && after == staged[target := after[target]])
  {
    match Load(files, parse, dir)
    case None =>
    case Some(m) =>
      if !opts.dependencies {
        assert ProcessSpec(files, dirs, readOnly, dir, opts, parse, listing, part, clock, start)
            == CitationSpec(files, dirs, readOnly, dir, m, opts, listing, clock, start);
        CitationShape(files, dirs, readOnly, dir, m, opts, listing, clock, start);
      }
  }

  /** The files `CitationSpec` leaves: the staged ones, with at most the output file written on top. */
  lemma CitationShape(files: map<string, string>, dirs: set<string>, readOnly: set<string>, dir: string,
                      m: ManifestInfo, opts: RunOptions, listing: Listing, clock: Clock, start: nat)
    ensures var after := CitationSpec(files, dirs, readOnly, dir, m, opts, listing, clock, start).1;
      var staged := Staged(files, readOnly, dir, opts, listing);
      var target := TargetPath(dir, opts);
      after == files || after == staged || (target in after && after == staged[target := after[target]])
  {
    if !(opts.readmeAppend && listing(dir).None?) {
      var mid := if opts.readmeAppend then AppendEach(files, readOnly, ReadmeFiles(dir, listing), ReadmeSection) else (files, true);
      assert mid.0 == Staged(files, readOnly, dir, opts, listing);
    }
  }

  /**
   * The overwrite guard: without `--overwrite`, an output path that already
   * exists is never written, and the file counts as skipped.
   */
  lemma NeverClobbers(files: map<string, string>, dirs: set<string>, readOnly: set<string>, dir: string,
                      opts: RunOptions, parse: Parser, listing: Listing, part: Contribution, clock: Clock, start: nat)
    requires !opts.overwrite && !opts.dependencies
    requires TargetPath(dir, opts) in files || TargetPath(dir, opts) in dirs
    requires TargetPath(dir, opts) !in ReadmeFiles(dir, listing)
    ensures var outcome := ProcessSpec(files, dirs, readOnly, dir, opts, parse, listing, part, clock, start).0;
      outcome == Done(false, "") || outcome == Error
    ensures var after := ProcessSpec(files, dirs, readOnly, dir, opts, parse, listing, part, clock, start).1;
      TargetPath(dir, opts) in files ==> TargetPath(dir, opts) in after && after[TargetPath(dir, opts)] == files[TargetPath(dir, opts)]
  {
    OnlyOutputAndReadmesChange(files, dirs, readOnly, dir, opts, parse, listing, part, clock, start);
    if opts.readmeAppend && listing(dir).Some? {
      AppendEachOnlyTargets(files, readOnly, ReadmeFiles(dir, listing), ReadmeSection);
    }
  }

  /**
   * In particular the guard holds whenever the output path itself does not
   * contain `README`, which as written is what keeps it out of the appends.
   */
  lemma NeverClobbersOutsideReadmePaths(files: map<string, string>, dirs: set<string>, readOnly: set<string>, dir: string,
                                        opts: RunOptions, parse: Parser, listing: Listing, part: Contribution, clock: Clock, start: nat)
    requires !opts.overwrite && !opts.dependencies
    requires TargetPath(dir, opts) in files || TargetPath(dir, opts) in dirs
    requires !Contains(TargetPath(dir, opts), "README")
    ensures var outcome := ProcessSpec(files, dirs, readOnly, dir, opts, parse, listing, part, clock, start).0;
      outcome == Done(false, "") || outcome == Error
    ensures var after := ProcessSpec(files, dirs, readOnly, dir, opts, parse, listing, part, clock, start).1;
      TargetPath(dir, opts) in files ==> TargetPath(dir, opts) in after && after[TargetPath(dir, opts)] == files[TargetPath(dir, opts)]
  {
    if listing(dir).Some? {
      ReadmeTargetsMembers(dir, listing(dir).value);
    }
    NeverClobbers(files, dirs, readOnly, dir, opts, parse, listing, part, clock, start);
  }

  /**
   * The README files are appended to before the guard is consulted: even when
   * the citation file already exists and the manifest is skipped, each README
   * found (listed once) has gained the "Citing" section.
   */
  lemma ReadmeAppendedBeforeGuard(files: map<string, string>, dirs: set<string>, readOnly: set<string>, dir: string,
                                  opts: RunOptions, parse: Parser, listing: Listing, part: Contribution, clock: Clock, start: nat,
                                  i: nat)
    requires !opts.dependencies && opts.readmeAppend && Load(files, parse, dir).Some? && listing(dir).Some?
    requires i < |ReadmeFiles(dir, listing)|
    requires forall j :: 0 <= j < |ReadmeFiles(dir, listing)| && j != i ==> ReadmeFiles(dir, listing)[j] != ReadmeFiles(dir, listing)[i]
    requires AppendEach(files, readOnly, ReadmeFiles(dir, listing), ReadmeSection).1
    ensures var (outcome, after, _) := ProcessSpec(files, dirs, readOnly, dir, opts, parse, listing, part, clock, start);
      var t := ReadmeFiles(dir, listing)[i];
      t in files && t in after
      && (t != TargetPath(dir, opts) || outcome == Done(false, "") || outcome == Error ==> after[t] == files[t] + ReadmeSection)
  {
    var names := ReadmeFiles(dir, listing);
    AppendEachAppends(files, readOnly, names, ReadmeSection, i);
    AppendEachOnlyTargets(files, readOnly, names, ReadmeSection);
    var m := Load(files, parse, dir).value;
    assert ProcessSpec(files, dirs, readOnly, dir, opts, parse, listing, part, clock, start)
        == CitationSpec(files, dirs, readOnly, dir, m, opts, listing, clock, start);
    CitationAfterReadmes(files, dirs, readOnly, dir, m, opts, listing, clock, start);
  }

  /**
   * Once the README appends succeed, the files afterwards are those appends
   * plus, on a success only, the citation record at the output path.
   */
  lemma CitationAfterReadmes(files: map<string, string>, dirs: set<string>, readOnly: set<string>, dir: string,
                             m: ManifestInfo, opts: RunOptions, listing: Listing, clock: Clock, start: nat)
    requires opts.readmeAppend && listing(dir).Some?
    requires AppendEach(files, readOnly, ReadmeFiles(dir, listing), ReadmeSection).1
    ensures var r := CitationSpec(files, dirs, readOnly, dir, m, opts, listing, clock, start);
      var mid := AppendEach(files, readOnly, ReadmeFiles(dir, listing), ReadmeSection).0;
      (r.0 == Done(true, "") && r.1 == mid[TargetPath(dir, opts) := ProjectBibtex(m.package, clock(start))])
      || ((r.0 == Done(false, "") || r.0 == Error) && r.1 == mid)
  {
  }

  /**
   * In a directory whose path contains `README`, `-r` appends the "Citing"
   * section to every entry it lists, the manifest and an existing citation file
   * included, and only then finds the citation file present: the package is
   * skipped, with the citation file already changed although `--overwrite` was
   * not given.
   */
  lemma ExistingCitationAppended(files: map<string, string>, dirs: set<string>, readOnly: set<string>, dir: string,
                                 opts: RunOptions, parse: Parser, listing: Listing, part: Contribution, clock: Clock, start: nat)
    requires !opts.dependencies && opts.readmeAppend && !opts.overwrite
    requires Load(files, parse, dir).Some? && listing(dir).Some?
    requires Contains(dir, "README")
    requires var names := listing(dir).value;
      forall k :: 0 <= k < |names| ==>
        !IsAbsolute(names[k]) && JoinPath(dir, names[k]) in files && JoinPath(dir, names[k]) !in readOnly
    requires var names := listing(dir).value; forall j, k :: 0 <= j < k < |names| ==> names[j] != names[k]
    requires OutputName(opts.filename) in listing(dir).value
    ensures var (outcome, after, _) := ProcessSpec(files, dirs, readOnly, dir, opts, parse, listing, part, clock, start);
      var names := listing(dir).value;
      outcome == Done(false, "")
      && TargetPath(dir, opts) in files && TargetPath(dir, opts) in after
      && after[TargetPath(dir, opts)] == files[TargetPath(dir, opts)] + ReadmeSection
      && forall k :: 0 <= k < |names| ==>
           JoinPath(dir, names[k]) in after && after[JoinPath(dir, names[k])] == files[JoinPath(dir, names[k])] + ReadmeSection
  {
    var names := listing(dir).value;
    var t := ReadmeFiles(dir, listing);
    ReadmeDirectorySelectsAll(dir, names);
    AppendEachSucceeds(files, readOnly, t, ReadmeSection);
    AppendEachOnlyTargets(files, readOnly, t, ReadmeSection);
    var m := Load(files, parse, dir).value;
    assert ProcessSpec(files, dirs, readOnly, dir, opts, parse, listing, part, clock, start)
        == CitationSpec(files, dirs, readOnly, dir, m, opts, listing, clock, start);
    var i :| 0 <= i < |names| && names[i] == OutputName(opts.filename);
    assert t[i] == TargetPath(dir, opts);
    forall k | 0 <= k < |names|
      ensures JoinPath(dir, names[k]) in ProcessSpec(files, dirs, readOnly, dir, opts, parse, listing, part, clock, start).1
      ensures ProcessSpec(files, dirs, readOnly, dir, opts, parse, listing, part, clock, start).1[JoinPath(dir, names[k])]
           == files[JoinPath(dir, names[k])] + ReadmeSection
    {
      forall j | 0 <= j < |t| && j != k ensures t[j] != t[k] {
        if t[j] == t[k] {
          JoinPathInjective(dir, names[j], names[k]);
        }
      }
      ReadmeAppendedBeforeGuard(files, dirs, readOnly, dir, opts, parse, listing, part, clock, start, k);
    }
  }

  /**
   * An instance: `cargo cite -r` in any directory whose path contains `README`
   * (such as `/work/README-kit`) holding a manifest, a README and a citation
   * file skips the package, with the "Citing" section appended to the citation
   * file and to the manifest.
   */
  lemma ReadmeKitCitationAppended(dir: string, m: ManifestInfo, part: Contribution, clock: Clock,
                                  manifest: string, readme: string, citation: string)
    requires Contains(dir, "README")
    ensures var cite := JoinPath(dir, CitationFileName);
      var files := map[CargoPath(dir) := manifest, JoinPath(dir, "README.md") := readme, cite := citation];
      var parse: Parser := s => Some(m);
      var listing: Listing := d => Some([CargoFileName, "README.md", CitationFileName]);
      var (outcome, after, _) :=
        ProcessSpec(files, {}, {}, dir, RunOptions(false, true, None, false, None), parse, listing, part, clock, 0);
      outcome == Done(false, "")
      && cite in after && after[cite] == citation + ReadmeSection
      && CargoPath(dir) in after && after[CargoPath(dir)] == files[CargoPath(dir)] + ReadmeSection
  {
    var names := [CargoFileName, "README.md", CitationFileName];
    var paths := [CargoPath(dir), JoinPath(dir, "README.md"), JoinPath(dir, CitationFileName)];
    var files := map[paths[0] := manifest, paths[1] := readme, paths[2] := citation];
    var parse: Parser := s => Some(m);
    var listing: Listing := d => Some(names);
    var opts := RunOptions(false, true, None, false, None);
    assert names[2] == OutputName(opts.filename);
    assert Load(files, parse, dir) == Some(m);
    forall k | 0 <= k < |names| ensures !IsAbsolute(names[k]) && JoinPath(dir, names[k]) in files {
      if k == 0 {
        assert names[k] == CargoFileName;
      } else if k == 1 {
        assert names[k] == "README.md";
      } else {
        assert names[k] == CitationFileName;
      }
    }
    assert |names[0]| == 10 && |names[1]| == 9 && |names[2]| == 12;
    ExistingCitationAppended(files, {}, {}, dir, opts, parse, listing, part, clock, 0);
    assert JoinPath(dir, names[0]) == CargoPath(dir);
  }

  /**
   * As written, `--max-depth 0` in dependency mode finds no manifest at all,
   * so the run ends with nothing to process.
   */
  lemma DiscoverDepthZero(opts: RunOptions, startDir: string, files: map<string, string>, dirs: set<string>,
                          walk: seq<WalkItem>)
    requires opts.dependencies && opts.maxDepth == Some(0) && StartsAtDirectory(walk)
    ensures Discover(opts, startDir, files, dirs, walk) == []
  {
    DepthZeroFindsNothing(walk);
  }

  // ---------------------------------------------------------------------------
  // `main`: the loop over the manifests found, and the combined dependency file

  /** How many of the packages in `dirs` have a manifest that loads. */
  function ParsedCount(dirs: seq<string>, files: map<string, string>, parse: Parser): (n: nat)
    ensures n <= |dirs|
  {
    if dirs == [] then 0
    else (if Load(files, parse, dirs[0]).Some? then 1 else 0) + ParsedCount(dirs[1..], files, parse)
  }

  /**
   * The index of the first clock reading of the `k`-th discovered manifest in
   * dependency mode: `start`, plus the readings the manifests before it take.
   */
  ghost function FirstTick(dirs: seq<string>, k: nat, files: map<string, string>, parse: Parser, start: nat): nat
    requires k <= |dirs|
    decreases k
  {
    if k == 0 then start
    else
      FirstTick(dirs, k - 1, files, parse, start) + TicksOf(files, parse, dirs[k - 1])
  }

  /** The clock readings the manifest in `dir` takes: none when it does not load. */
  ghost function TicksOf(files: map<string, string>, parse: Parser, dir: string): nat {
    match Load(files, parse, dir)
    case None => 0
    case Some(m) => Reads(m)
  }

  /** The text the manifest in `dir` contributes from reading `tick` on: none when it does not load. */
  ghost function ShareOf(files: map<string, string>, parse: Parser, dir: string, part: Contribution, tick: nat): string {
    match Load(files, parse, dir)
    case None => ""
    case Some(m) => part(m, tick)
  }

  /**
   * The combined text of the first `k` discovered directories: the
   * contributions of the manifests that load, in discovery order, each taking
   * its clock readings after those of the manifests before it.
   */
  ghost function CombinedUpTo(dirs: seq<string>, k: nat, files: map<string, string>, parse: Parser,
                              part: Contribution, start: nat): string
    requires k <= |dirs|
    decreases k
  {
    if k == 0 then ""
    else
      CombinedUpTo(dirs, k - 1, files, parse, part, start)
      + ShareOf(files, parse, dirs[k - 1], part, FirstTick(dirs, k - 1, files, parse, start))
  }

  /** The combined dependency text of all of `dirs`, the first clock reading being `start`. */
  ghost function Combined(dirs: seq<string>, files: map<string, string>, parse: Parser, fetch: Registry, clock: Clock, start: nat)
    : string
  {
    CombinedUpTo(dirs, |dirs|, files, parse, DependencyTexts(fetch, clock), start)
  }

  /** The definitions of `FirstTick` and `CombinedUpTo`, one manifest further. */
  lemma StepUnfold(dirs: seq<string>, j: nat, files: map<string, string>, parse: Parser, part: Contribution, start: nat)
    requires j < |dirs|
    ensures FirstTick(dirs, j + 1, files, parse, start) == FirstTick(dirs, j, files, parse, start) + TicksOf(files, parse, dirs[j])
    ensures CombinedUpTo(dirs, j + 1, files, parse, part, start)
         == CombinedUpTo(dirs, j, files, parse, part, start)
            + ShareOf(files, parse, dirs[j], part, FirstTick(dirs, j, files, parse, start))
  {
    assert j + 1 - 1 == j;
  }

  /** One more manifest handled: the count of manifests that loaded grows exactly when this one loads. */
  lemma CountStep(dirs: seq<string>, i: nat, files: map<string, string>, parse: Parser, count: nat, success: bool)
    requires i < |dirs|
    requires count + ParsedCount(dirs[i..], files, parse) == ParsedCount(dirs, files, parse)
    requires success <==> Load(files, parse, dirs[i]).Some?
    ensures success ==> (count + 1) + ParsedCount(dirs[i + 1..], files, parse) == ParsedCount(dirs, files, parse)
    ensures !success ==> count + ParsedCount(dirs[i + 1..], files, parse) == ParsedCount(dirs, files, parse)
  {
    assert dirs[i..][1..] == dirs[i + 1..];
  }

  /** One call of `process_cargo_file`, given the files, the package directory and the first clock reading. */
  type Step = (map<string, string>, string, nat) -> (Outcome, map<string, string>, nat)

  /** `ProcessSpec` with everything but the files, the directory and the clock reading fixed. */
  ghost function Processing(fsDirs: set<string>, readOnly: set<string>, opts: RunOptions, parse: Parser, listing: Listing,
                            part: Contribution, clock: Clock): Step
  {
    (files: map<string, string>, dir: string, tick: nat) =>
      ProcessSpec(files, fsDirs, readOnly, dir, opts, parse, listing, part, clock, tick)
  }

  /**
   * The loop in `main` from the manifest in `dirs[0]` on, in any mode: how many
   * of the calls succeed, and the files afterwards. Each call starts from the
   * files and the clock reading the call before it left.
   */
  ghost function Sweep(dirs: seq<string>, files: map<string, string>, step: Step, tick: nat): (nat, map<string, string>)
    decreases |dirs|
  {
    if dirs == [] then (0, files)
    else
      var (outcome, after, ticks) := step(files, dirs[0], tick);
      var (count, final) := Sweep(dirs[1..], after, step, tick + ticks);
      ((if outcome.Done? && outcome.success then 1 else 0) + count, final)
  }

  /**
   * The loop in `main` after `i` manifests, in any mode: `processed` successes so
   * far, and what the rest of the loop does from `files` and reading `tick` on
   * completes the run `total`.
   */
  ghost predicate Sweeping(dirs: seq<string>, i: nat, files: map<string, string>, step: Step, tick: nat,
                           processed: nat, total: (nat, map<string, string>))
    requires i <= |dirs|
  {
    var rest := Sweep(dirs[i..], files, step, tick);
    processed + rest.0 == total.0 && rest.1 == total.1
  }

  /** One call of `process_cargo_file` moves the loop one manifest on. */
  lemma SweepStep(dirs: seq<string>, i: nat, files: map<string, string>, step: Step, tick: nat,
                  processed: nat, total: (nat, map<string, string>), outcome: Outcome, after: map<string, string>, ticks: nat)
    requires i < |dirs|
    requires Sweeping(dirs, i, files, step, tick, processed, total)
    requires (outcome, after, ticks) == step(files, dirs[i], tick)
    ensures Sweeping(dirs, i + 1, after, step, tick + ticks,
                     if outcome.Done? && outcome.success then processed + 1 else processed, total)
  {
    assert dirs[i..][0] == dirs[i];
    assert dirs[i..][1..] == dirs[i + 1..];
  }

  /** A run over one package is that package's `process_cargo_file`. */
  lemma SweepSingle(dir: string, files: map<string, string>, step: Step, tick: nat)
    ensures var (outcome, after, _) := step(files, dir, tick);
      Sweep([dir], files, step, tick) == (if outcome.Done? && outcome.success then 1 else 0, after)
  {
    assert [dir][1..] == [];
  }

  /**
   * The state of the loop in `main` after the first `i` manifests in
   * dependency mode: `count` of them loaded, the next clock reading is `tick`,
   * and `collected` is their combined text.
   */
  ghost predicate Collecting(dirs: seq<string>, i: nat, files: map<string, string>, parse: Parser, part: Contribution,
                             start: nat, count: nat, tick: nat, collected: string)
    requires i <= |dirs|
  {
    count + ParsedCount(dirs[i..], files, parse) == ParsedCount(dirs, files, parse)
    && tick == FirstTick(dirs, i, files, parse, start)
    && collected == CombinedUpTo(dirs, i, files, parse, part, start)
  }

  /**
   * One manifest further in dependency mode: the count of loaded manifests
   * grows by one exactly when this one loads, the next manifest's readings
   * start after its own, and the collected text grows by its share exactly
   * when it loads.
   */
  lemma Advance(dirs: seq<string>, i: nat, files: map<string, string>, parse: Parser, part: Contribution, start: nat,
                count: nat, tick: nat, collected: string, success: bool, ticks: nat, text: string)
    requires i < |dirs|
    requires Collecting(dirs, i, files, parse, part, start, count, tick, collected)
    requires success <==> Load(files, parse, dirs[i]).Some?
    requires ticks == TicksOf(files, parse, dirs[i])
    requires text == ShareOf(files, parse, dirs[i], part, tick)
    ensures Collecting(dirs, i + 1, files, parse, part, start,
                       if success then count + 1 else count, tick + ticks, if success then collected + text else collected)
  {
    CountStep(dirs, i, files, parse, count, success);
    StepUnfold(dirs, i, files, parse, part, start);
    if !success {
      assert text == "";
      assert collected + text == collected;
    }
  }

  /**
   * One call of `process_cargo_file` from the loop in `main`, seen through what
   * the loop needs: in dependency mode nothing on disk changes, the call
   * succeeds exactly when the manifest loads, and its text and clock readings
   * are that manifest's share of the combined dependency file.
   */
  method ProcessInDirectory(disk: Disk, dir: string, opts: RunOptions, parse: Parser, listing: Listing,
                            fetch: Registry, clock: Clock, start: nat)
    returns (outcome: Outcome, ticks: nat)
    requires disk.Valid()
    modifies disk
    ensures disk.Valid()
    ensures (outcome, disk.files, ticks)
         == ProcessSpec(old(disk.files), disk.dirs, disk.readOnly, dir, opts, parse, listing, DependencyTexts(fetch, clock), clock, start)
    ensures opts.dependencies ==>
      disk.files == old(disk.files) && outcome.Done?
      && (outcome.success <==> Load(old(disk.files), parse, dir).Some?)
      && ticks == TicksOf(old(disk.files), parse, dir)
      && outcome.deps == ShareOf(old(disk.files), parse, dir, DependencyTexts(fetch, clock), start)
  {
    outcome, ticks := ProcessCargoFile(disk, dir, opts, parse, listing, fetch, clock, start);
    if opts.dependencies {
      DependencyModeReadOnly(old(disk.files), disk.dirs, disk.readOnly, dir, opts, parse, listing, fetch, clock, start);
    }
  }

  /**
   * The bookkeeping of one manifest in the loop of `main`: a success counts as
   * processed and, in dependency mode, its records are appended; a failure or
   * an error counts as skipped.
   */
  method Tally(outcome: Outcome, dependencies: bool, processed: nat, skipped: nat, collected: string)
    returns (processed': nat, skipped': nat, collected': string)
    ensures processed' + skipped' == processed + skipped + 1
    ensures processed' == (if outcome.Done? && outcome.success then processed + 1 else processed)
    ensures dependencies ==> collected' == (if outcome.Done? && outcome.success then collected + outcome.deps else collected)
    ensures !dependencies ==> collected' == collected
  {
    processed', skipped', collected' := processed, skipped, collected;
    match outcome {
      case Done(success, depsBibtex) =>
        if success {
          processed' := processed' + 1;
          if dependencies {
            collected' := collected' + depsBibtex;
          }
        } else {
          skipped' := skipped' + 1;
        }
      case Error =>
        skipped' := skipped' + 1;
    }
  }

  /**
   * One pass of the loop in `main`: process the next manifest and do its
   * bookkeeping. In dependency mode the loop state moves one manifest on.
   */
  method HandleManifest(disk: Disk, dirs: seq<string>, i: nat, opts: RunOptions, parse: Parser, listing: Listing,
                        fetch: Registry, clock: Clock, start: nat, ghost files: map<string, string>,
                        ghost total: (nat, map<string, string>),
                        processed: nat, skipped: nat, collected: string, tick: nat)
    returns (processed': nat, skipped': nat, collected': string, tick': nat)
    requires disk.Valid() && i < |dirs|
    requires Sweeping(dirs, i, disk.files,
               Processing(disk.dirs, disk.readOnly, opts, parse, listing, DependencyTexts(fetch, clock), clock),
               tick, processed, total)
    requires opts.dependencies ==>
      disk.files == files && Collecting(dirs, i, files, parse, DependencyTexts(fetch, clock), start, processed, tick, collected)
    modifies disk
    ensures disk.Valid()
    ensures Sweeping(dirs, i + 1, disk.files,
               Processing(disk.dirs, disk.readOnly, opts, parse, listing, DependencyTexts(fetch, clock), clock),
               tick', processed', total)
    ensures processed' + skipped' == processed + skipped + 1
    ensures !opts.dependencies ==> collected' == collected
    ensures opts.dependencies ==>
      disk.files == files && Collecting(dirs, i + 1, files, parse, DependencyTexts(fetch, clock), start, processed', tick', collected')
  {
    ghost var before := disk.files;
    var outcome, ticks := ProcessInDirectory(disk, dirs[i], opts, parse, listing, fetch, clock, tick);
    ghost var step := Processing(disk.dirs, disk.readOnly, opts, parse, listing, DependencyTexts(fetch, clock), clock);
    SweepStep(dirs, i, before, step, tick, processed, total, outcome, disk.files, ticks);
    if opts.dependencies {
      Advance(dirs, i, files, parse, DependencyTexts(fetch, clock), start, processed, tick, collected,
              outcome.Done? && outcome.success, ticks, outcome.deps);
    }
    processed', skipped', collected' := Tally(outcome, opts.dependencies, processed, skipped, collected);
    tick' := tick + ticks;
  }

  /**
   * The loop in `main`: each manifest counts as processed or as skipped, never
   * both; in dependency mode the records of the successful ones are collected
   * in order and no file changes, otherwise nothing is collected.
   */
  method ProcessAll(disk: Disk, dirs: seq<string>, opts: RunOptions, parse: Parser, listing: Listing,
                    fetch: Registry, clock: Clock, start: nat)
    returns (processed: nat, skipped: nat, allDependencies: string)
    requires disk.Valid()
    modifies disk
    ensures disk.Valid()
    ensures processed + skipped == |dirs|
    ensures (processed, disk.files)
         == Sweep(dirs, old(disk.files),
               Processing(disk.dirs, disk.readOnly, opts, parse, listing, DependencyTexts(fetch, clock), clock), start)
    ensures !opts.dependencies ==> allDependencies == ""
    ensures opts.dependencies ==>
      disk.files == old(disk.files)
      && processed == ParsedCount(dirs, old(disk.files), parse)
      && allDependencies == Combined(dirs, old(disk.files), parse, fetch, clock, start)
  {
    processed, skipped, allDependencies := 0, 0, "";
    var tick := start;
    var i := 0;
    assert dirs[0..] == dirs;
    ghost var files := disk.files;
    ghost var step := Processing(disk.dirs, disk.readOnly, opts, parse, listing, DependencyTexts(fetch, clock), clock);
    ghost var total := Sweep(dirs, files, step, start);
    while i < |dirs|
      invariant 0 <= i <= |dirs|
      invariant disk.Valid()
      invariant processed + skipped == i
      invariant Sweeping(dirs, i, disk.files, step, tick, processed, total)
      invariant !opts.dependencies ==> allDependencies == ""
      invariant opts.dependencies ==>
        disk.files == files && Collecting(dirs, i, files, parse, DependencyTexts(fetch, clock), start, processed, tick, allDependencies)
      decreases |dirs| - i
    {
      processed, skipped, allDependencies, tick :=
        HandleManifest(disk, dirs, i, opts, parse, listing, fetch, clock, start, files, total, processed, skipped, allDependencies, tick);
      i := i + 1;
    }
    assert dirs[i..] == [];
  }

  /** What became of the combined dependency text. */
  datatype AggregateResult =
    | NotWritten                 // not dependency mode, or no records at all
    | Printed(text: string)      // `-f STDOUT`
    | KeptExisting(path: string) // the file exists and `--overwrite` is off
    | Written(path: string)
    | WriteFailed(path: string)  // `main` returns the error

  /**
   * What becomes of the combined text `text`: nothing outside dependency mode or
   * when it is empty; printed for `-f STDOUT`; otherwise the file under the
   * start directory is kept when it exists and `--overwrite` is off, and
   * written, or failed to be written, when not.
   */
  function AggregateOutcome(files: map<string, string>, dirs: set<string>, readOnly: set<string>, startDir: string,
                            opts: RunOptions, text: string): AggregateResult
  {
    if !opts.dependencies || text == "" then NotWritten
    else if AggregateName(opts.filename) == StdoutName then Printed(text)
    else
      var path := JoinPath(startDir, AggregateName(opts.filename));
      if (path in files || path in dirs) && !opts.overwrite then KeptExisting(path)
      else if path in dirs || path in readOnly then WriteFailed(path)
      else Written(path)
  }

  /**
   * The guard on the combined file: only the aggregate path under the start
   * directory is ever written, never when it exists and `--overwrite` is off,
   * and standard output receives exactly the combined text.
   */
  lemma AggregateGuard(files: map<string, string>, dirs: set<string>, readOnly: set<string>, startDir: string,
                       opts: RunOptions, text: string)
    ensures var r := AggregateOutcome(files, dirs, readOnly, startDir, opts, text);
      var path := JoinPath(startDir, AggregateName(opts.filename));
      (r.NotWritten? <==> !opts.dependencies || text == "")
      && (r.Printed? <==> opts.dependencies && text != "" && AggregateName(opts.filename) == StdoutName)
      && (r.Printed? ==> r.text == text)
      && (r.Written? ==> r.path == path && path !in dirs && path !in readOnly && (path !in files || opts.overwrite))
      && (r.KeptExisting? ==> r.path == path && (path in files || path in dirs) && !opts.overwrite)
  {
  }

  /** Writing the combined dependency file under the start directory, under the same overwrite guard. */
  method WriteAggregate(disk: Disk, startDir: string, opts: RunOptions, allDependencies: string)
    returns (r: AggregateResult)
    requires disk.Valid()
    modifies disk
    ensures disk.Valid()
    ensures r == AggregateOutcome(old(disk.files), disk.dirs, disk.readOnly, startDir, opts, allDependencies)
    ensures r.Written? ==> disk.files == old(disk.files)[r.path := allDependencies]
    ensures !r.Written? ==> disk.files == old(disk.files)
  {
    if !opts.dependencies || allDependencies == "" {
      return NotWritten;
    }
    var outputFile := AggregateName(opts.filename);
    if outputFile == StdoutName {
      return Printed(allDependencies);
    }
    var filePath := JoinPath(startDir, outputFile);
    if disk.Exists(filePath) && !opts.overwrite {
      return KeptExisting(filePath);
    }
    var ok := disk.Write(filePath, allDependencies);
    if ok {
      r := Written(filePath);
    } else {
      r := WriteFailed(filePath);
    }
  }

  /**
   * The packages to process, by directory: in dependency mode the manifests
   * the walk finds, the depth going to the walk unchanged; otherwise the start
   * directory, when it holds a `Cargo.toml`.
   */
  function Discover(opts: RunOptions, startDir: string, files: map<string, string>, dirs: set<string>,
                    walk: seq<WalkItem>): seq<string>
  {
    if opts.dependencies then FindCargoFiles(walk, opts.maxDepth)
    else if CargoPath(startDir) in files || CargoPath(startDir) in dirs then [startDir]
    else []
  }

  /** Outside dependency mode at most the start directory itself is processed. */
  lemma DiscoverSingle(opts: RunOptions, startDir: string, files: map<string, string>, dirs: set<string>, walk: seq<WalkItem>)
    requires !opts.dependencies
    ensures Discover(opts, startDir, files, dirs, walk) == [startDir]
        <==> CargoPath(startDir) in files || CargoPath(startDir) in dirs
    ensures Discover(opts, startDir, files, dirs, walk) == [] || Discover(opts, startDir, files, dirs, walk) == [startDir]
  {
  }

  /** How a run ends. */
  datatype RunResult =
    | MissingStart   // the start directory does not exist
    | NoManifest     // nothing to process
    | Finished(processed: nat, skipped: nat, aggregate: AggregateResult)

  /**
   * `main` after argument parsing: check the start directory, discover the
   * manifests, process each, then write the combined dependency file. The clock
   * readings are numbered from 0.
   */
  method Run(disk: Disk, startDir: string, opts: RunOptions, walk: seq<WalkItem>, parse: Parser, listing: Listing,
             fetch: Registry, clock: Clock)
    returns (r: RunResult)
    requires disk.Valid()
    modifies disk
    ensures disk.Valid()
    ensures r == MissingStart <==> !old(disk.Exists(startDir))
    ensures r == NoManifest <==>
      old(disk.Exists(startDir)) && Discover(opts, startDir, old(disk.files), disk.dirs, walk) == []
    ensures r.MissingStart? || r.NoManifest? ==> disk.files == old(disk.files)
    ensures r.Finished? ==> r.processed + r.skipped == |Discover(opts, startDir, old(disk.files), disk.dirs, walk)|
    ensures r.Finished? && !opts.dependencies ==>
      var (outcome, after, _) :=
        ProcessSpec(old(disk.files), disk.dirs, disk.readOnly, startDir, opts, parse, listing, DependencyTexts(fetch, clock), clock, 0);
      Discover(opts, startDir, old(disk.files), disk.dirs, walk) == [startDir]
      && disk.files == after && r.aggregate == NotWritten
      && (r.processed == 1 <==> outcome == Done(true, "")) && r.processed + r.skipped == 1
    ensures r.Finished? && opts.dependencies ==>
      var found := Discover(opts, startDir, old(disk.files), disk.dirs, walk);
      r.processed == ParsedCount(found, old(disk.files), parse)
      && r.aggregate == AggregateOutcome(old(disk.files), disk.dirs, disk.readOnly, startDir, opts,
                                         Combined(found, old(disk.files), parse, fetch, clock, 0))
      && (r.aggregate.Written? ==>
            disk.files == old(disk.files)[r.aggregate.path := Combined(found, old(disk.files), parse, fetch, clock, 0)])
      && (!r.aggregate.Written? ==> disk.files == old(disk.files))
  {
    if !disk.Exists(startDir) {
      return MissingStart;
    }
    var cargoFiles := Discover(opts, startDir, disk.files, disk.dirs, walk);
    if cargoFiles == [] {
      return NoManifest;
    }
    if !opts.dependencies {
      DiscoverSingle(opts, startDir, disk.files, disk.dirs, walk);
      SweepSingle(startDir, disk.files,
                  Processing(disk.dirs, disk.readOnly, opts, parse, listing, DependencyTexts(fetch, clock), clock), 0);
      CitationWrittenOnSuccess(disk.files, disk.dirs, disk.readOnly, startDir, opts, parse, listing, DependencyTexts(fetch, clock), clock, 0);
    }
    var processed, skipped, allDependencies := ProcessAll(disk, cargoFiles, opts, parse, listing, fetch, clock, 0);
    var aggregate := WriteAggregate(disk, startDir, opts, allDependencies);
    r := Finished(processed, skipped, aggregate);
  }
}

=== FILE: ordered.dfy ===
/**
 * Iteration order of a `BTreeMap<String, _>`: whatever order the entries were
 * declared or inserted in, iteration visits the keys in ascending `String`
 * order. The map's content is a Dafny `map`; the order is `SortedKeys`.
 */
module Ordered {
  import opened Strings

  /** Strictly ascending: no key twice, each one below the next. */
  predicate StrictlySorted(t: seq<string>) {
    forall i, j :: 0 <= i < j < |t| ==> LexLess(t[i], t[j])
  }

  /** No key occurs twice. */
  predicate Distinct(t: seq<string>) {
    forall i, j :: 0 <= i < j < |t| ==> t[i] != t[j]
  }

  /** A strictly ascending sequence repeats no key. */
  lemma SortedDistinct(t: seq<string>)
    requires StrictlySorted(t)
    ensures Distinct(t)
  {
    forall i, j | 0 <= i < j < |t| ensures t[i] != t[j] {
      if t[i] == t[j] {
        LexIrreflexive(t[i]);
      }
    }
  }

  /** `k` is the smallest key of `s`. */
  predicate IsLeast(k: string, s: set<string>) {
    k in s && forall x :: x in s && x != k ==> LexLess(k, x)
  }

  lemma {:induction false} LeastExists(s: set<string>)
    requires s != {}
    ensures exists k :: IsLeast(k, s)
    decreases |s|
  {
    var x :| x in s;
    if s == {x} {
      assert IsLeast(x, s);
    } else {
      LeastExists(s - {x});
      var m :| IsLeast(m, s - {x});
      LexTotal(x, m);
      if LexLess(x, m) {
        forall y | y in s && y != x ensures LexLess(x, y) {
          if y != m { LexTransitive(x, m, y); }
        }
        assert IsLeast(x, s);
      } else {
        assert IsLeast(m, s);
      }
    }
  }

  lemma LeastUnique(a: string, b: string, s: set<string>)
    requires IsLeast(a, s) && IsLeast(b, s)
    ensures a == b
  {
    if a != b {
      LexTransitive(a, b, a);
      LexIrreflexive(a);
    }
  }

  ghost function Least(s: set<string>): (k: string)
    requires s != {}
    ensures IsLeast(k, s)
  {
    LeastExists(s);
    var k :| IsLeast(k, s); k
  }

  /**
   * The keys of `s` in the order a `BTreeMap` iterates them. That these are
   * exactly the keys of `s`, each once, is `SortedKeysContents`.
   */
  ghost function SortedKeys(s: set<string>): (r: seq<string>)
    ensures StrictlySorted(r)
    decreases |s|, 0
  {
    if s == {} then []
    else
      var k := Least(s);
      var rest := SortedKeys(s - {k});
      SortedKeysContents(s - {k});
      SortedCons(k, rest);
      [k] + rest
  }

  /** Iteration visits every key of `s` and nothing else, so it takes `|s|` steps. */
  lemma {:induction false} SortedKeysContents(s: set<string>)
    ensures |SortedKeys(s)| == |s|
    ensures forall x :: x in SortedKeys(s) <==> x in s
    decreases |s|, 1
  {
    if s != {} {
      var k := Least(s);
      SortedKeysContents(s - {k});
      assert SortedKeys(s) == [k] + SortedKeys(s - {k});
    }
  }

  lemma SortedCons(k: string, rest: seq<string>)
    requires StrictlySorted(rest)
    requires forall x :: x in rest ==> LexLess(k, x)
    ensures StrictlySorted([k] + rest)
  {
    var t := [k] + rest;
    forall i, j | 0 <= i < j < |t| ensures LexLess(t[i], t[j]) {
      if i == 0 { assert t[j] in rest; }
      else { assert t[i] == rest[i - 1] && t[j] == rest[j - 1]; }
    }
  }

  /** Taking the smallest key first and then the rest in order is `SortedKeys`. */
  lemma SortedKeysUnfold(s: set<string>, k: string)
    requires IsLeast(k, s)
    ensures SortedKeys(s) == [k] + SortedKeys(s - {k})
  {
    LeastUnique(k, Least(s), s);
  }

  /**
   * Any strictly ascending enumeration of a key set is `SortedKeys`: the order of
   * iteration depends on the set of keys alone, never on declaration order.
   */
  lemma {:induction false} SortedKeysUnique(t: seq<string>, s: set<string>)
    requires StrictlySorted(t)
    requires forall x :: x in t <==> x in s
    ensures t == SortedKeys(s)
    decreases |t|
  {
    if t == [] {
      assert s == {};
    } else {
      var k := t[0];
      forall x | x in s && x != k ensures LexLess(k, x) {
        var j :| 0 <= j < |t| && t[j] == x;
      }
      assert IsLeast(k, s);
      forall x ensures x in t[1..] <==> x in s - {k} {
        if x in t[1..] {
          var j :| 1 <= j < |t| && t[j] == x;
          if x == k { LexIrreflexive(k); }
        }
        if x in s - {k} {
          var j :| 0 <= j < |t| && t[j] == x;
          assert j != 0;
          assert t[1..][j - 1] == x;
        }
      }
      SortedKeysUnique(t[1..], s - {k});
      SortedKeysUnfold(s, k);
    }
  }
}

=== FILE: paths.dfy ===
/**
 * Path joining as `Path::join` does it on Unix, substring search as
 * `str::contains` does it, and the choice of README files to append to.
 */
module Paths {

  const CargoFileName: string := "Cargo.toml"
  const CitationFileName: string := "CITATION.bib"

  predicate IsAbsolute(p: string) { |p| > 0 && p[0] == '/' }

  /**
   * `dir.join(name)`: an absolute `name` replaces `dir`; otherwise one `/` is put
   * between the two unless `dir` is empty or already ends with one.
   */
  function JoinPath(dir: string, name: string): (p: string)
    ensures IsAbsolute(name) ==> p == name
    ensures !IsAbsolute(name) ==> |p| >= |dir| + |name| && p[..|dir|] == dir
    ensures |p| >= |name| && p[|p| - |name|..] == name
  {
    if IsAbsolute(name) then name
    else if dir == [] || dir[|dir| - 1] == '/' then dir + name
    else dir + "/" + name
  }

  /** Where the manifest of the package in `dir` lives. */
  function CargoPath(dir: string): string { JoinPath(dir, CargoFileName) }

  /** `s.contains(t)`: `t` occurs in `s` at some offset. */
  function Contains(s: string, t: string): bool
    decreases |s|
  {
    if |s| < |t| then false
    else s[..|t|] == t || Contains(s[1..], t)
  }

  /** `t` occurs in `s` at offset `i`. */
  predicate OccursAt(s: string, t: string, i: int) {
    0 <= i && i + |t| <= |s| && s[i..i + |t|] == t
  }

  lemma {:induction false} ContainsIff(s: string, t: string)
    ensures Contains(s, t) <==> exists i :: OccursAt(s, t, i)
    decreases |s|
  {
    if |s| >= |t| {
      if !OccursAt(s, t, 0) {
        ContainsIff(s[1..], t);
        if Contains(s[1..], t) {
          var i :| OccursAt(s[1..], t, i);
          assert OccursAt(s, t, i + 1);
        }
        if exists i :: OccursAt(s, t, i) {
          var i :| OccursAt(s, t, i);
          assert OccursAt(s[1..], t, i - 1);
        }
      }
    }
  }

  /** Whatever occurs in a suffix occurs in the whole. */
  lemma ContainsInSuffix(s: string, k: nat, t: string)
    requires k <= |s|
    requires Contains(s[k..], t)
    ensures Contains(s, t)
  {
    ContainsIff(s[k..], t);
    var i :| OccursAt(s[k..], t, i);
    assert OccursAt(s, t, k + i);
    ContainsIff(s, t);
  }

  /** A pattern whose first character does not occur in `s` does not occur in `s`. */
  lemma MissingFirstChar(s: string, t: string)
    requires |t| > 0 && forall i :: 0 <= i < |s| ==> s[i] != t[0]
    ensures !Contains(s, t)
  {
    ContainsIff(s, t);
    forall i ensures !OccursAt(s, t, i) {
      if 0 <= i && i + |t| <= |s| {
        assert s[i..i + |t|][0] == s[i];
      }
    }
  }

  /**
   * The entries of `dir` that `process_cargo_file` appends the "Citing" section
   * to, as written: those whose whole path contains `README`.
   */
  function ReadmeTargets(dir: string, names: seq<string>): seq<string> {
    if names == [] then []
    else
      var p := JoinPath(dir, names[0]);
      (if Contains(p, "README") then [p] else []) + ReadmeTargets(dir, names[1..])
  }

  /** The evident intent: the entries whose own file name contains `README`. */
  function ReadmeTargetsByName(dir: string, names: seq<string>): seq<string> {
    if names == [] then []
    else
      (if Contains(names[0], "README") then [JoinPath(dir, names[0])] else [])
      + ReadmeTargetsByName(dir, names[1..])
  }

  /** As written: an entry is selected exactly when its whole path contains `README`, in listing order. */
  lemma {:induction false} ReadmeTargetsMembers(dir: string, names: seq<string>)
    ensures forall p :: p in ReadmeTargets(dir, names) <==>
      exists n :: n in names && p == JoinPath(dir, n) && Contains(p, "README")
    ensures |ReadmeTargets(dir, names)| <= |names|
  {
    if names != [] {
      ReadmeTargetsMembers(dir, names[1..]);
      assert forall n :: n in names <==> n == names[0] || n in names[1..];
    }
  }

  /**
   * As written, selection keeps listing order: one more listed entry adds its
   * path at the end, exactly when that path contains `README`.
   */
  lemma {:induction false} ReadmeTargetsSnoc(dir: string, names: seq<string>, n: string)
    ensures ReadmeTargets(dir, names + [n])
         == ReadmeTargets(dir, names) + (if Contains(JoinPath(dir, n), "README") then [JoinPath(dir, n)] else [])
    decreases |names|
  {
    if names == [] {
      assert [n][1..] == [];
    } else {
      var p := JoinPath(dir, names[0]);
      var head := if Contains(p, "README") then [p] else [];
      assert (names + [n])[0] == names[0];
      assert (names + [n])[1..] == names[1..] + [n];
      assert ReadmeTargets(dir, names + [n]) == head + ReadmeTargets(dir, names[1..] + [n]);
      ReadmeTargetsSnoc(dir, names[1..], n);
    }
  }

  /** Intended: an entry is selected exactly when its file name contains `README`. */
  lemma {:induction false} ReadmeTargetsByNameMembers(dir: string, names: seq<string>)
    ensures forall p :: p in ReadmeTargetsByName(dir, names) <==>
      exists n :: n in names && p == JoinPath(dir, n) && Contains(n, "README")
    ensures |ReadmeTargetsByName(dir, names)| <= |names|
  {
    if names != [] {
      ReadmeTargetsByNameMembers(dir, names[1..]);
      assert forall n :: n in names <==> n == names[0] || n in names[1..];
    }
  }

  /** A name containing `README` gives a path containing `README`. */
  lemma ReadmeNameInPath(dir: string, n: string)
    requires Contains(n, "README")
    ensures Contains(JoinPath(dir, n), "README")
  {
    var p := JoinPath(dir, n);
    assert p[|p| - |n|..] == n;
    ContainsInSuffix(p, |p| - |n|, "README");
  }

  /** Every file the intended rule selects, the rule as written selects too. */
  lemma ByNameSelectedAsWritten(dir: string, names: seq<string>)
    ensures forall p :: p in ReadmeTargetsByName(dir, names) ==> p in ReadmeTargets(dir, names)
  {
    ReadmeTargetsMembers(dir, names);
    ReadmeTargetsByNameMembers(dir, names);
    forall p | p in ReadmeTargetsByName(dir, names) ensures p in ReadmeTargets(dir, names) {
      var n :| n in names && p == JoinPath(dir, n) && Contains(n, "README");
      ReadmeNameInPath(dir, n);
    }
  }

  /**
   * The rule as written also selects the manifest itself, and every other
   * entry, once the package directory's own path contains `README`.
   */
  lemma ReadmeInDirectoryName()
    ensures var dir := "/work/README-kit";
      ReadmeTargets(dir, [CargoFileName, "README.md"]) == [CargoPath(dir), JoinPath(dir, "README.md")]
  {
    var dir := "/work/README-kit";
    assert OccursAt(dir, "README", 6);
    ContainsIff(dir, "README");
    var names := [CargoFileName, "README.md"];
    ReadmeDirectorySelectsAll(dir, names);
  }

  /** A directory path containing `README` puts `README` into the path of each of its entries. */
  lemma ReadmeDirectoryInPath(dir: string, n: string)
    requires Contains(dir, "README") && !IsAbsolute(n)
    ensures Contains(JoinPath(dir, n), "README")
  {
    ContainsIff(dir, "README");
    var i :| OccursAt(dir, "README", i);
    var p := JoinPath(dir, n);
    assert p[i..i + 6] == p[..|dir|][i..i + 6];
    assert OccursAt(p, "README", i);
    ContainsIff(p, "README");
  }

  /** Joining relative names onto one directory never makes two names one path. */
  lemma JoinPathInjective(dir: string, a: string, b: string)
    requires !IsAbsolute(a) && !IsAbsolute(b) && JoinPath(dir, a) == JoinPath(dir, b)
    ensures a == b
  {
    if dir == [] || dir[|dir| - 1] == '/' {
      assert (dir + a)[|dir|..] == a && (dir + b)[|dir|..] == b;
    } else {
      assert (dir + "/" + a)[|dir| + 1..] == a && (dir + "/" + b)[|dir| + 1..] == b;
    }
  }

  /**
   * As written, every entry of a directory whose own path contains `README` is
   * selected, in listing order: the manifest and the citation file included.
   */
  lemma {:induction false} ReadmeDirectorySelectsAll(dir: string, names: seq<string>)
    requires Contains(dir, "README")
    requires forall k :: 0 <= k < |names| ==> !IsAbsolute(names[k])
    ensures |ReadmeTargets(dir, names)| == |names|
    ensures forall k :: 0 <= k < |names| ==> ReadmeTargets(dir, names)[k] == JoinPath(dir, names[k])
    decreases |names|
  {
    if names != [] {
      ReadmeDirectoryInPath(dir, names[0]);
      ReadmeDirectorySelectsAll(dir, names[1..]);
      assert ReadmeTargets(dir, names) == [JoinPath(dir, names[0])] + ReadmeTargets(dir, names[1..]);
    }
  }

  /** The intended rule selects only the README itself in that directory. */
  lemma ReadmeByNameInDirectoryName()
    ensures var dir := "/work/README-kit";
      ReadmeTargetsByName(dir, [CargoFileName, "README.md"]) == [JoinPath(dir, "README.md")]
  {
    var dir := "/work/README-kit";
    assert OccursAt("README.md", "README", 0);
    ContainsIff("README.md", "README");
    MissingFirstChar(CargoFileName, "README");
    var names := [CargoFileName, "README.md"];
    assert names[1..] == ["README.md"];
    assert ["README.md"][1..] == [];
    assert ReadmeTargetsByName(dir, ["README.md"]) == [JoinPath(dir, "README.md")] + ReadmeTargetsByName(dir, []);
    assert ReadmeTargetsByName(dir, names) == [] + ReadmeTargetsByName(dir, ["README.md"]);
  }
}

=== FILE: text.dfy ===
/**
 * String building blocks the citation templates are made of: concatenation of
 * pieces, Rust's `[String]::join`, decimal rendering of the date numbers and the
 * byte-wise (code-point) ordering of `String` keys that a `BTreeMap` iterates in.
 */
module Strings {

  /** Concatenation of a sequence of pieces, in order. */
  function Concat(parts: seq<string>): string {
    if parts == [] then "" else parts[0] + Concat(parts[1..])
  }

  lemma {:induction false} ConcatAppend(a: seq<string>, b: seq<string>)
    ensures Concat(a + b) == Concat(a) + Concat(b)
  {
    if a == [] {
      assert a + b == b;
    } else {
      assert (a + b)[1..] == a[1..] + b;
      ConcatAppend(a[1..], b);
    }
  }

  lemma ConcatSnoc(a: seq<string>, x: string)
    ensures Concat(a + [x]) == Concat(a) + x
  {
    ConcatAppend(a, [x]);
    assert Concat([x]) == x + Concat([]);
  }

  lemma AppendAssoc(a: string, b: string, c: string)
    ensures a + b + c == a + (b + c)
  {
  }

  /** Total length of all pieces. */
  function TotalLength(xs: seq<string>): nat {
    if xs == [] then 0 else |xs[0]| + TotalLength(xs[1..])
  }

  /** Rust's `join`: the pieces in order with `sep` between consecutive ones. */
  function Join(xs: seq<string>, sep: string): string {
    if |xs| == 0 then ""
    else if |xs| == 1 then xs[0]
    else xs[0] + sep + Join(xs[1..], sep)
  }

  /**
   * Reference layout of a join: slot 2i holds the i-th piece and every odd slot
   * holds one separator, so k pieces get exactly k - 1 separators.
   */
  function Interleaved(xs: seq<string>, sep: string): seq<string> {
    if |xs| == 0 then []
    else seq(2 * |xs| - 1, i requires 0 <= i < 2 * |xs| - 1 => if i % 2 == 0 then xs[i / 2] else sep)
  }

  /** Peeling the first piece off an interleaved layout of two or more pieces. */
  lemma InterleavedCons(xs: seq<string>, sep: string)
    requires |xs| >= 2
    ensures Interleaved(xs, sep) == [xs[0], sep] + Interleaved(xs[1..], sep)
  {
    var tail := Interleaved(xs[1..], sep);
    var whole := Interleaved(xs, sep);
    assert |whole| == 2 + |tail|;
    forall i | 2 <= i < |whole|
      ensures whole[i] == tail[i - 2]
    {
      assert tail[i - 2] == (if (i - 2) % 2 == 0 then xs[1..][(i - 2) / 2] else sep);
    }
  }

  /** Joining is concatenating the interleaved layout: pieces in input order, k - 1 separators. */
  lemma {:induction false} JoinIsInterleaved(xs: seq<string>, sep: string)
    ensures Join(xs, sep) == Concat(Interleaved(xs, sep))
  {
    if |xs| == 0 {
    } else if |xs| == 1 {
      assert Interleaved(xs, sep) == [xs[0]];
      assert Concat([xs[0]]) == xs[0] + Concat([]);
    } else {
      var tail := Interleaved(xs[1..], sep);
      InterleavedCons(xs, sep);
      JoinIsInterleaved(xs[1..], sep);
      ConcatAppend([xs[0], sep], tail);
      assert Concat([xs[0], sep]) == xs[0] + sep by {
        assert [xs[0], sep][1..] == [sep];
        assert Concat([sep]) == sep + Concat([]);
      }
    }
  }

  /** The joined text is as long as the pieces plus k - 1 separators. */
  lemma {:induction false} JoinLength(xs: seq<string>, sep: string)
    requires |xs| > 0
    ensures |Join(xs, sep)| == TotalLength(xs) + (|xs| - 1) * |sep|
  {
    if |xs| == 1 {
      assert TotalLength(xs) == |xs[0]| + TotalLength([]);
    } else {
      JoinLength(xs[1..], sep);
    }
  }

  /** Each piece sits at a fixed offset of the joined text, in input order. */
  lemma {:induction false} JoinPieceAt(xs: seq<string>, sep: string, i: nat)
    requires i < |xs|
    ensures Offset(xs, sep, i) + |xs[i]| <= |Join(xs, sep)|
    ensures Join(xs, sep)[Offset(xs, sep, i)..Offset(xs, sep, i) + |xs[i]|] == xs[i]
  {
    var j := Join(xs, sep);
    if |xs| == 1 {
      assert j == xs[0];
    } else if i == 0 {
      assert j == xs[0] + (sep + Join(xs[1..], sep));
      assert j[..|xs[0]|] == xs[0];
    } else {
      JoinPieceAt(xs[1..], sep, i - 1);
      var rest := Join(xs[1..], sep);
      var k := |xs[0]| + |sep|;
      assert j == (xs[0] + sep) + rest;
      assert j[k + Offset(xs[1..], sep, i - 1)..k + Offset(xs[1..], sep, i - 1) + |xs[i]|]
          == rest[Offset(xs[1..], sep, i - 1)..Offset(xs[1..], sep, i - 1) + |xs[i]|];
    }
  }

  /** Where the i-th piece starts in the joined text. */
  function Offset(xs: seq<string>, sep: string, i: nat): nat
    requires i < |xs|
  {
    if i == 0 then 0 else |xs[0]| + |sep| + Offset(xs[1..], sep, i - 1)
  }

  // Decimal rendering, as Rust's `Display` for integers writes it.

  predicate IsDigit(c: char) { '0' <= c <= '9' }

  predicate AllDigits(s: string) {
    forall i :: 0 <= i < |s| ==> IsDigit(s[i])
  }

  function DigitChar(d: nat): (c: char)
    requires d < 10
    ensures IsDigit(c)
  {
    "0123456789"[d]
  }

  function DigitValue(c: char): nat
    requires IsDigit(c)
  {
    (c as int - '0' as int) as nat
  }

  /** Decimal digits of `n`, most significant first, no leading zeros. */
  function ShowNat(n: nat): (r: string)
    ensures 1 <= |r| && AllDigits(r)
    ensures |r| > 1 ==> r[0] != '0'
    decreases n
  {
    if n < 10 then [DigitChar(n)] else ShowNat(n / 10) + [DigitChar(n % 10)]
  }

  /** Reads a string of decimal digits back as a number. */
  function ParseNat(s: string): nat
    requires AllDigits(s)
  {
    if s == [] then 0 else ParseNat(s[..|s| - 1]) * 10 + DigitValue(s[|s| - 1])
  }

  /** The rendering loses nothing: reading it back gives the number. */
  lemma {:induction false} ParseShowNat(n: nat)
    ensures ParseNat(ShowNat(n)) == n
  {
    var s := ShowNat(n);
    if n < 10 {
      assert s[..0] == [];
    } else {
      ParseShowNat(n / 10);
      assert s[..|s| - 1] == ShowNat(n / 10);
    }
  }

  /** Signed decimal, a minus sign before the magnitude of a negative number. */
  function ShowInt(n: int): (r: string)
    ensures n >= 0 ==> r == ShowNat(n)
    ensures n < 0 ==> |r| > 1 && r[0] == '-' && r[1..] == ShowNat(-n)
  {
    if n < 0 then "-" + ShowNat(-n) else ShowNat(n)
  }

  // Lexicographic order on strings: Rust compares `String`s byte-wise, which
  // for UTF-8 is the same as comparing code points one by one.

  predicate LexLess(a: string, b: string) {
    if |a| == 0 then |b| > 0
    else |b| > 0 && (if a[0] == b[0] then LexLess(a[1..], b[1..]) else a[0] < b[0])
  }

  lemma {:induction false} LexIrreflexive(a: string)
    ensures !LexLess(a, a)
  {
    if |a| > 0 {
      LexIrreflexive(a[1..]);
    }
  }

  lemma {:induction false} LexTransitive(a: string, b: string, c: string)
    requires LexLess(a, b) && LexLess(b, c)
    ensures LexLess(a, c)
  {
    if |a| > 0 && a[0] == b[0] && b[0] == c[0] {
      LexTransitive(a[1..], b[1..], c[1..]);
    }
  }

  lemma {:induction false} LexTotal(a: string, b: string)
    requires a != b
    ensures LexLess(a, b) || LexLess(b, a)
  {
    if |a| > 0 && |b| > 0 && a[0] == b[0] {
      assert a == [a[0]] + a[1..] && b == [b[0]] + b[1..];
      LexTotal(a[1..], b[1..]);
    }
  }
}

=== FILE: wrappers.dfy ===
/** The Option type that stands for Rust's `Option<T>` throughout the model. */
module Wrappers {

  datatype Option<+T> = None | Some(value: T) {

    /** `Option::unwrap_or` */
    function GetOr(default: T): T {
      match this
      case Some(v) => v
      case None => default
    }

    /** `Option::or`: this value when present, otherwise `other`. */
    function Or(other: Option<T>): Option<T> {
      match this
      case Some(_) => this
      case None => other
    }
  }
}
